=== FILE: README.md ===
# Live traffic map: a Dafny model of its decision logic

`app.js` draws the live positions of Stockholm's trains, trams and buses on a
map. Every three seconds it fetches a snapshot of vehicle records, looks each
trip up in a trip table, filters the vehicles by the lines the user has
selected, works out which way each arrow points, glides the markers to their
new positions and keeps a hover label and a pinned label in step.

This project models that logic as pure functions over immutable data. It
proves the properties the code and its comments promise.

| file | module | what it models |
|---|---|---|
| `wrappers.dfy` | `Wrappers` | `Option`, which stands for JavaScript's `null` and `undefined` |
| `geo.dfy` | `Geo` | positions (`[lat, lon]`), `Math.abs`, `Math.min` and `Math.max` over reals |
| `text.dfy` | `Text` | the string primitives the code relies on: JavaScript `trim` whitespace, ASCII case mapping, `split`/`join`, decimal and hexadecimal digits |
| `lines.dfy` | `Lines` | `normalizeLine`, `colorForRailLine`, `darkenHex`, `fmtSpeed`, `buildLabelText` and the label background |
| `selection.dfy` | `Selection` | the selected-lines set with its `"__NONE__"` and `"__BUS__"` sentinels, `passesFilter`, `isLineSelected`, the two toggles and the search box. It also gives a reference `View` datatype that the set encodes |
| `heading.dfy` | `Heading` | the bearing block of `upsertVehicle` and the "pop" cue |
| `animation.dfy` | `Animation` | `clamp`, `computeAnimMs`, `easeInOutCubic`, and `animateTrainTo` with its frame step |
| `labels.dfy` | `Labels` | the hover/pin label state and every event that changes it |
| `reconcile.dfy` | `Reconcile` | `enrich`, `upsertVehicle`, `removeVehicleCompletely`, `removeAllNow` and the loop of `refreshLive` after the fetch |

Modelling decisions:

- **Positions and times** are `real`s.
- **`headingFromPoints`** is a function parameter whose results lie in `[0, 360)`.
- **The Leaflet projection** is a parameter that gives the pixel distance between two points.
- **`performance.now()`** is a parameter, `now`.
- **The trip table `TRIP_TO_LINE`** is a `map` parameter.
- **One map per vehicle.** The four maps `markers`, `lastPos`, `lastBearing` and `bearingEstablished` lose an entry together (app.js:993-997, 1012-1016). Every upsert writes `markers` and `lastPos` (app.js:1070, 1107-1123). The two bearing maps gain an entry only when a bearing is established (app.js:1057-1060). So the four become one `map<Id, Track>`, and a missing bearing entry is a `None` or `false` field of the track's `Memory`.
- **The two label markers** become the fields of one `LabelState` record.

Two facts of the code that the model keeps as written:

- **Movement check.** The movement test is an OR over the two axes (app.js:1047-1049): `Math.abs(dLat) > 0.00002 || Math.abs(dLon) > 0.00002`. A move along either axis alone counts (`Heading.Moved`, `Heading.OneAxisMoveGivesHeading`).
- **Label state.** The labels are two id variables and two marker variables (app.js:28-32). The model keeps them as the fields of `LabelState`, constrained by `Labels.Inv`.

Two edge cases of the sentinel encoding are proved rather than ruled out:

- **A line spelled like the bus token.** A rail line whose code normalises to `"__BUS__"` passes the filter whenever buses are selected (`Selection.RailLineNamedLikeBusToken`).
- **A line spelled like the "none" token.** Toggling a line whose code normalises to `"__NONE__"` produces a set that hides everything and is not well formed (`Selection.ToggleNoneSpelledLine`).

Real line codes never look like this, so these are recorded as properties, not as defects.

## Model

| member | source | states |
|---|---|---|
| Text.Trim | app.js:194 | the trimmed text neither starts nor ends with JavaScript whitespace; it is the text after its leading whitespace with only trailing whitespace cut off, so inner whitespace is kept; text without whitespace is left alone |
| Text.TrimStart | app.js:194 | what `trim` drops at the front is all whitespace, and the rest is a suffix of the input |
| Text.TrimEnd | app.js:194 | what `trim` drops at the back is all whitespace, and the rest is a prefix of the input |
| Text.TrimOnlyRemovesSpaces | app.js:194-196 | trimming before removing all whitespace changes nothing |
| Text.StripSpaces | app.js:196 | `replace(/\s+/g, "")` leaves no whitespace, never lengthens the text and keeps text without whitespace as it is |
| Text.StripSpacesAppend | app.js:196 | removing whitespace distributes over concatenation |
| Text.UpperChar | app.js:196 | `toUpperCase` on one ASCII character: a lower-case letter becomes the capital at the same place in the alphabet, and every other character is kept |
| Text.Upper | app.js:196 | `toUpperCase` maps each character separately and keeps the length |
| Text.LowerChar | app.js:558 | `toLowerCase` on one ASCII character: a capital becomes the lower-case letter at the same place in the alphabet, and every other character is kept |
| Text.Lower | app.js:558 | `toLowerCase` maps each character separately and keeps the length |
| Text.Split | app.js:551 | `split(",")` yields at least one part, and no part holds the separator |
| Text.JoinSplit | app.js:551 | joining the parts of a split with the separator gives back the text |
| Text.SplitJoin | app.js:551 | splitting the join of separator-free parts gives back the parts |
| Text.Decimal | app.js:255 | the decimal form of a speed is all digits, with no leading zero |
| Text.DecimalRoundTrip | app.js:255 | the decimal form reads back as the number |
| Text.ParseHexByte | app.js:223-225 | a two-digit hexadecimal channel is below 256 |
| Text.HexDigitIgnoresCase | app.js:223-225 | `parseInt(_, 16)` reads a capital hexadecimal digit as its lower-case twin |
| Text.ParseHexByteWritesBack | app.js:223-233 | reading two hexadecimal digits and writing the byte back gives the same digits in lower case |
| Text.HexDigitChar | app.js:231-233 | `toString(16)` of one digit is a lower-case digit that reads back as that digit |
| Text.HexByte | app.js:231-233 | `toString(16).padStart(2, "0")` gives two lower-case characters that parse back to the channel |
| Lines.MatchSpan | app.js:195 | the match of `/(\d+\s*[A-Z]+\|\d+)/i` is absent exactly when the text has no digit. Otherwise it starts at the leftmost digit and takes the longest run of digits. If letters follow the longest run of whitespace after it, the match goes on through that whitespace and the longest run of letters; otherwise it ends after the digits |
| Lines.NormalizeLine | app.js:193-197 | a normalised code holds no whitespace and no lower-case letter |
| Lines.NormalizeExtracts | app.js:193-197 | with a match, the code is the matched digits followed by the matched letters upper-cased, the whitespace between dropped; without one, it is the whole text with whitespace removed, upper-cased |
| Lines.NormalizeIsCanonical | app.js:193-197 | a normalised code is canonical: where it holds a digit, it is a run of digits followed only by upper-case letters |
| Lines.CanonicalIsFixed | app.js:193-197 | normalising a canonical code returns it unchanged |
| Lines.NoDigitsNormalize | app.js:195-196 | without a digit, the code is the whole text with all whitespace removed, upper-cased |
| Lines.NormalizeIdempotent | app.js:193-197 | normalising twice equals normalising once, which lines 203, 481 and 1034 rely on for already normalised lines |
| Lines.ColorForRailLine | app.js:202-219 | the colour is one of the palette's colours, and it is the default `#111827` exactly when the normalised code is not one of the 24 listed codes |
| Lines.RailColor | app.js:205-218 | the colour chain always gives one of the eleven palette colours |
| Lines.RailColorInPalette | app.js:205-216 | every listed code gets a colour other than the default |
| Lines.RailColorOutsidePalette | app.js:218 | every code that is not listed gets the default |
| Lines.RailColorIsDefaultIff | app.js:205-218 | both directions: default colour if and only if the code is not listed |
| Lines.ColorIgnoresSpelling | app.js:202-203 | the colour depends only on the normalised code |
| Lines.BusColourIsNotRail | app.js:200-218 | the bus colour `#020224` is never a rail colour |
| Lines.LabelBackground | app.js:353 | a label is bus-coloured exactly when its vehicle has type 700; any other label gets `colorForRailLine` of its line, a palette colour that is the default exactly when the normalised line is not one of the listed codes |
| Lines.LabelBackgroundIgnoresSpelling | app.js:353 | two spellings of a line that normalise alike get the same label background |
| Lines.HalfRoundsUp | app.js:227-229 | `Math.round(v * 0.5)` rounds halves up, giving `(v + 1) / 2` |
| Lines.RoundHalfUp | app.js:227-229 | `Math.round` gives the integer within a half of its argument, a tie going up |
| Lines.Clamp255 | app.js:222 | `clamp255` gives a value in `[0, 255]`: the argument when it is in range, and the nearer end otherwise |
| Lines.DarkenChannel | app.js:227-229 | a channel below 256 darkens to its half, rounding up, which is never brighter and stays below 256 |
| Lines.Channels | app.js:223-225 | the three channels parse exactly when the colour has at least seven characters and characters 1 to 6 are hexadecimal digits; each channel is below 256 and is the byte its digit pair spells, so writing it back gives that pair in lower case |
| Lines.DarkenHex | app.js:221-234 | darkening succeeds exactly when the three channels parse; the result is `#rrggbb` and its channels read back as the input's channels halved, rounding up; it is written in lower case |
| Lines.DarkenIsDarker | app.js:227-229 | darkening never brightens a channel, and a channel above zero stays above zero |
| Lines.HexColorHasChannels | app.js:223-225 | a `#` followed by six hexadecimal digits always parses into three channels |
| Lines.RailColoursAreHex | app.js:205-218 | every palette colour is a `#` followed by six hexadecimal digits |
| Lines.PaletteColoursDarken | app.js:278-279 | the stroke colour of a rail arrow always exists, because every colour the palette gives can be darkened |
| Lines.FmtSpeed | app.js:253-256 | the speed suffix is empty exactly when the speed is missing or negative |
| Lines.FmtSpeedReadsBack | app.js:255 | a non-negative speed is written as `" • "`, then its digits, then `" km/h"`, and the digits read back as the speed |
| Lines.BuildLabelText | app.js:36-38 | the label starts with the line, and is just the line exactly when the headsign is missing or empty; otherwise the line is followed by `" → "` and the headsign |
| Lines.LabelText | app.js:354 | the shown text starts with the label text, and is just the label text exactly when the speed is missing or negative |
| Lines.LabelTextReadsBack | app.js:253-256 | with a speed of `n` km/h, the label text is followed by `" • "`, then digits, then `" km/h"`, and the digits read back as `n` |
| Selection.Admits | app.js:477-489 | the four filter rules on a normalised code: "none" rejects everything; the empty set accepts everything; a bus passes on the bus token or on its code; anything else passes only on its code |
| Selection.PassesFilter | app.js:477-489 | the same four rules for a vehicle, applied to its normalised line |
| Selection.IsLineSelected | app.js:460-465 | a chip is selected exactly when the selection is not "none" and either shows all or holds the normalised line |
| Selection.IsShowNone | app.js:444-446 | among well-formed selections, "show nothing" holds exactly for the set that holds only the none sentinel |
| Selection.RailPassesIffLineSelected | app.js:460-489 | a non-bus vehicle passes the filter exactly when its line's chip is selected |
| Selection.Decode | app.js:396-405 | a well-formed selection set decodes to a valid view: show all, show nothing, or a subset of lines plus a bus flag |
| Selection.Encode | app.js:396-405 | a valid view encodes to a well-formed set |
| Selection.EncodeDecode | app.js:396-405 | encoding the decoded view of a well-formed set gives back the set |
| Selection.DecodeEncode | app.js:396-405 | decoding an encoded valid view gives back the view |
| Selection.AdmitsMatchesView | app.js:396-405 | the set-based filter agrees with the view's visibility for every code other than the bus token |
| Selection.PassesFilterMatchesView | app.js:467-489 | `passesFilter` agrees with the documented rules of the view for every line that does not normalise to the bus token |
| Selection.RailLineNamedLikeBusToken | app.js:481-488 | a non-bus vehicle whose line normalises to `"__BUS__"` passes whenever the bus token is selected, although the view would hide it |
| Selection.ToggleCode | app.js:498-512 | an empty code is a no-op. From "all" or "none" the result is just that code. A set holding only that code becomes "none". Otherwise only that code's membership flips. The result is never empty |
| Selection.ToggleRailLine | app.js:496-515 | toggling a chip never yields "show all", and a line that normalises to the empty code changes nothing |
| Selection.ToggleRestrictedCodes | app.js:506-507 | in a restricted selection the toggled code flips, the bus token is kept, and "none" does not appear |
| Selection.ToggleCodeMatchesView | app.js:491-515 | on a well-formed selection the toggle is the view's toggle of that line, with an emptied subset becoming "show nothing" |
| Selection.ToggleCodeTwice | app.js:506-507 | in a restricted selection, toggling the same code twice restores the selection |
| Selection.ToggleCodeFlipsOnlyThatLine | app.js:506-507 | a toggle flips the visibility of that line and of no other |
| Selection.ToggleCodeWellFormed | app.js:496-515 | toggling any code except `"__NONE__"` keeps a selection well formed |
| Selection.ToggleNoneSpelledLine | app.js:497-507 | a line normalising to `"__NONE__"`, toggled into a restricted selection, adds the sentinel: the set hides everything and is not well formed |
| Selection.ToggleBusMode | app.js:525-541 | the bus toggle never yields "show all". From "all" or "none" it gives only the bus token. The bus token alone becomes "none". Otherwise only the token flips |
| Selection.ToggleBusModeMatchesView | app.js:517-541 | on a well-formed selection the bus toggle is the view's flip of the bus flag |
| Selection.ToggleBusModeTwice | app.js:532-533 | in a restricted selection, toggling buses twice restores the selection, and the intermediate result is well formed |
| Selection.NonEmpty | app.js:551 | `filter(Boolean)` keeps exactly the non-empty parts |
| Selection.TrimAll | app.js:551 | every part is trimmed, in order, and none is dropped |
| Selection.SearchParts | app.js:551 | the parts are exactly the non-empty trimmed comma-separated pieces; each is non-empty, comma-free and has no whitespace at either end |
| Selection.SearchToken | app.js:558-564 | "bus" or "buss" in any case gives the bus token. Any other part gives its normalised code, or nothing when that code is empty or `"__NONE__"` |
| Selection.Tokens | app.js:557-565 | the tokens of a search never include `"__NONE__"` or the empty code |
| Selection.SetSelectionFromSearch | app.js:550-571 | text without a usable token leaves the selection unchanged. Any other text replaces the selection with exactly the set of its parts' tokens, which is non-empty and free of `"__NONE__"` |
| Selection.SearchBusWord | app.js:559-561 | a part reading "bus" or "buss" puts the bus token into the new selection |
| Selection.SearchIgnoresPrevious | app.js:567-569 | a search that yields tokens is an absolute replacement, so the previous selection does not matter |
| Selection.SearchIdempotent | app.js:550-571 | applying the same search twice equals applying it once |
| Selection.SearchMatchesView | app.js:543-571 | a search keeps a selection well formed, and a search with tokens gives the subset view of those tokens |
| Heading.Infer | app.js:1037-1070 | the first rule that applies decides the bearing: (1) a reported bearing above 0; (2) otherwise the computed heading after a move above `0.00002` on either axis; (3) otherwise the established bearing; (4) otherwise none. The position is recorded, `established` never goes back to false, and the bearing maps stay consistent |
| Heading.Usable | app.js:1040 | a reported bearing is used exactly when it is present and above 0, so a missing bearing and a bearing of exactly 0 are ignored |
| Heading.Moved | app.js:1047-1049 | the move test does not depend on the direction of travel, a vehicle that stayed put has not moved, and a move past the threshold on one axis alone counts |
| Heading.Pop | app.js:1118-1119 | the arrow pops only when it had no bearing and has one now |
| Heading.EstablishedNeverLost | app.js:1057-1068 | once established, every later update yields a bearing, and it is the remembered one |
| Heading.BearingIsRemembered | app.js:1057-1060 | an update yields a bearing exactly when one is established afterwards, and that bearing is the one remembered |
| Heading.FirstSightingUsesReportOnly | app.js:1040-1055 | a vehicle never seen before gets a heading only from its own report |
| Heading.ZeroBearingIsUnknown | app.js:1040 | a reported bearing of exactly 0 counts as no bearing |
| Heading.OneAxisMoveGivesHeading | app.js:1040-1060 | for any remembered position and any unusable report, a move past the threshold along one axis with the other unchanged gives the computed heading, establishes and remembers it, and pops exactly when the arrow had no bearing before |
| Heading.JitterKeepsBearing | app.js:1040-1068 | for any vehicle with an established bearing and an unusable report, a move within the threshold on both axes keeps the remembered bearing |
| Heading.Run | app.js:1037-1119 | over any run of updates the maps stay consistent and `established` is never lost; once the arrow has a bearing it never pops again |
| Heading.PopsAtMostOnce | app.js:1118-1119 | over any run of updates, an arrow pops at most once |
| Animation.AnimMaxValue | app.js:6-8 | the longest glide is `min(3000 * 0.85, 2500) = 2500` ms |
| Animation.Clamp | app.js:132-134 | for `a <= b` the result lies in `[a, b]`, is `n` inside the range and the nearer bound outside it |
| Animation.ClampMonotone | app.js:132-134 | clamping is non-decreasing |
| Animation.ComputeAnimMs | app.js:140-148 | a glide lasts between 350 and 2500 ms; inside that range it is 7 ms per pixel, and outside it the nearer bound |
| Animation.ComputeAnimMsMonotone | app.js:140-148 | a longer distance never gets a shorter glide |
| Animation.Ease | app.js:136-138 | `easeInOutCubic` maps `[0, 1]` into `[0, 1]` |
| Animation.EaseEnds | app.js:136-138 | the curve gives 0 at 0, 1/2 at 1/2 and 1 at 1 |
| Animation.EaseMonotone | app.js:136-138 | the curve never goes backwards on `[0, 1]` |
| Animation.EaseSymmetric | app.js:136-138 | the second half of the curve mirrors the first |
| Animation.AnimateTo | app.js:150-167 | a move below `1e-8` on both axes places the marker at once and leaves no glide; any other move starts a glide from the drawn position to the target, at `now` and with the given duration |
| Animation.Lerp | app.js:173-174 | for an eased fraction in `[0, 1]`, the interpolated coordinate lies between the two endpoints |
| Animation.Progress | app.js:170 | the fraction of the glide done is at most 1, is not negative once the glide has started, and is 1 once its duration has passed |
| Animation.FrameStep | app.js:169-184 | a frame either ends the glide or keeps the same glide going |
| Animation.FrameAtEndArrives | app.js:169-184 | a frame at or after the end draws the destination and ends the glide |
| Animation.FrameEndsAtDestination | app.js:169-184 | whichever frame ends a glide draws the destination |
| Animation.FrameAtStartStays | app.js:169-184 | a frame at the start draws the origin and keeps the glide going |
| Animation.FrameStaysBetween | app.js:169-184 | every frame draws the marker inside the box spanned by origin and destination |
| Animation.FrameProgresses | app.js:169-184 | a later frame is never less far along the glide |
| Labels.HideHover | app.js:40-49 | only the hover label of that vehicle goes, never while it is pinned; the pinned label is untouched and no new hover id appears |
| Labels.ShowHover | app.js:51-72 | the hover label moves to the vehicle unless that vehicle is pinned; the pinned label is untouched |
| Labels.TogglePinned | app.js:74-99 | the hover label is cleared, then the vehicle is unpinned if pinned and pinned otherwise; the invariant is kept |
| Labels.MapClick | app.js:101-116 | a background click removes both labels |
| Labels.MouseMove | app.js:118-127 | with the pointer off every arrow, a leftover hover label is removed; the pinned label is untouched |
| Labels.MouseOver | app.js:1087-1091 | entering a tracked, unpinned arrow shows its hover label; the pinned label is untouched |
| Labels.MouseOut | app.js:1093-1096 | leaving an unpinned arrow removes its hover label; the pinned label is untouched |
| Labels.MarkerClick | app.js:1098-1102 | clicking a tracked arrow toggles its pin, and clicking an untracked one does nothing |
| Labels.Evict | app.js:999-1005 | after removing a vehicle no label refers to it, and the other label is untouched |
| Labels.ClearAll | app.js:1018-1027 | after removing everything, neither label exists |
| Labels.EvictSet | app.js:1194-1196 | after removing a set of vehicles, a label survives exactly when its vehicle is not in the set |
| Labels.EvictAll | app.js:1194-1196 | removing vehicles one by one keeps the label invariant |
| Labels.EvictIsEvictSet | app.js:999-1005 | removing one vehicle is removing the singleton set |
| Labels.EvictSetUnion | app.js:1194-1196 | removing two sets in turn is removing their union |
| Labels.EvictAllIsEvictSet | app.js:1194-1196 | removing vehicles one by one, in any order, is removing the set of them |
| Labels.EvictOrderIrrelevant | app.js:1194-1196 | two sweeps over the same vehicles in different orders leave the same labels |
| Labels.ApplyHover | app.js:40-72 | a hover, leave or move event keeps the invariant and never touches the pinned label |
| Labels.HoversKeepPinned | app.js:118-127 | any run of hover, leave and move events keeps the invariant and the pinned label |
| Labels.PinThenUnpin | app.js:74-99 | pinning the hovered vehicle moves its label from hover to pinned, and a second click removes every label |
| Reconcile.Enrich | app.js:374-385 | a trip is enriched exactly when its id is set, the table knows it and its entry has a non-empty line; the entry is then that of the table |
| Reconcile.Admit | app.js:1177-1182 | a record is admitted exactly when it has a non-empty id, both coordinates and an enrichable trip. The vehicle keeps its id, position, bearing and speed, takes line, headsign and type from the table, and its line is canonical |
| Reconcile.CanonicalStaysPut | app.js:1034 | the second normalisation inside `upsertVehicle` leaves an admitted line unchanged |
| Reconcile.UpsertTrack | app.js:1033-1152 | the track keeps the vehicle with a canonical line. A new vehicle is placed at its position with no pop. The arrow pops exactly when it had no bearing and has one now. A glide starts from where the marker was drawn and lasts 350 to 2500 ms |
| Reconcile.UpsertKeepsTrackInv | app.js:1037-1115 | an upsert keeps the track invariant: the position is recorded, the bearing maps are consistent, the arrow's bearing is the remembered one, and the marker is at or gliding to the last position. An established bearing survives |
| Reconcile.Start | app.js:18-34 | the page starts with nothing tracked and the session invariant holding |
| Reconcile.RemoveVehicle | app.js:986-1006 | removing an untracked vehicle does nothing. Otherwise exactly that vehicle's track goes, no label refers to it afterwards, and each label that is not this vehicle's stays as it was, even when the other label is this vehicle's |
| Reconcile.RemoveAll | app.js:1008-1028 | removing everything leaves no track and neither label |
| Reconcile.Step | app.js:1176-1190 | a skipped record changes nothing, the selection is never changed, and the seen set only grows |
| Reconcile.StepTracks | app.js:1184-1190 | a record carrying a vehicle keeps it tracked exactly when it passes the filter; records of other vehicles leave its track alone |
| Reconcile.StepSeen | app.js:1184-1189 | a vehicle is marked seen exactly when a record carrying it passes the filter |
| Reconcile.StepKeepsInv | app.js:1176-1190 | one iteration keeps the session invariant |
| Reconcile.Process | app.js:1176-1190 | the loop never changes the selection |
| Reconcile.ProcessKeepsInv | app.js:1176-1190 | the loop keeps the session invariant |
| Reconcile.Sweep | app.js:1194-1196 | exactly the seen vehicles stay tracked, their tracks unchanged, the hover and pinned labels of seen vehicles stay, and the invariant is kept |
| Reconcile.Tick | app.js:1169-1174 | a "show none" selection clears everything, and a tick never changes the selection |
| Reconcile.TickKeepsInv | app.js:1166-1196 | a tick keeps the session invariant: labels refer only to tracked vehicles, hover differs from pin, and every track is consistent |
| Reconcile.TickShowNone | app.js:1169-1174 | a "show none" tick leaves nothing tracked and no label |
| Reconcile.LastVerdictWitness | app.js:1176-1190 | the verdict of the last record carrying a vehicle is witnessed by a record of the feed, and no verdict means no record carries it |
| Reconcile.ProcessTracks | app.js:1176-1190 | after the loop a vehicle is tracked exactly when the last record carrying it passed, or when no record carried it and it was tracked before |
| Reconcile.ProcessSeen | app.js:1176-1190 | after the loop every vehicle whose last record passed is seen, and only vehicles that some record carried are seen |
| Reconcile.TickTracks | app.js:1166-1196 | unless the selection is "none", a vehicle is tracked after the tick exactly when the last record carrying it passes the filter |
| Reconcile.VerdictPasses | app.js:1176-1190 | a pass verdict has a passing record, and a passing record with no failing one gives a pass verdict |
| Reconcile.TickTracksPassing | app.js:1184-1196 | every vehicle tracked after a tick passed the filter in this tick, and one with a passing record and no failing record is tracked |
| Reconcile.TickUniqueIds | app.js:1176-1196 | with unique ids, the tracked vehicles after a tick are exactly the admitted vehicles that pass the filter |
| Reconcile.TickForgetsHistory | app.js:1166-1196 | which vehicles are tracked after a tick does not depend on what was tracked before |
| Reconcile.StepKeepsHeading | app.js:1184-1190 | an iteration keeps a tracked vehicle and its bearing unless its record fails the filter |
| Reconcile.ProcessKeepsHeading | app.js:1176-1190 | a bearing once established survives the loop while no record of the vehicle fails the filter |
| Reconcile.TickKeepsHeading | app.js:1166-1196 | a vehicle still tracked after a tick that no record failed keeps its established bearing |
| Reconcile.StepKeepsLabels | app.js:1184-1190 | an iteration takes a vehicle's hover or pinned label away only when that vehicle's record fails the filter |
| Reconcile.ProcessKeepsLabels | app.js:1176-1190 | a vehicle's labels survive the loop while no record of the vehicle fails the filter |
| Reconcile.TickKeepsLabels | app.js:1166-1196 | a vehicle still tracked after a tick that no record failed keeps its hover and pinned labels |
| Reconcile.FrameTrack | app.js:169-184 | a frame moves only the marker, keeps the glide or ends it at the destination, and keeps the track invariant |
| Reconcile.Frame | app.js:169-184 | a frame for every gliding marker keeps the tracked vehicles, their last records, the labels and the invariant |
| Reconcile.InvGlides | app.js:140-148 | every glide in progress has a positive duration |
| Reconcile.FrameSettles | app.js:169-184 | a frame after every glide's end leaves each marker at its vehicle's last position with no glide |
| Reconcile.Handle | app.js:101-127 | pointer and click events change only the labels, only clicks change the pinned label, and labels keep referring only to tracked vehicles |

## Left out

- DOM, chips and styling (app.js:577-980), the icon markup (`railArrowSvg`, `makeRailIcon`, `makeBusIcon`, `makeLabelIcon`), and the Leaflet map and layers: presentation only. Of the icons, only the bus/rail colour choice (app.js:353) and the stroke colour of rail arrows (app.js:278-279) are modelled.
- `localStorage` load and save (app.js:428-442): a foreign store behind `try/catch`. The selection is a plain value of the model.
- `fetch`, `async`/`await` and HTTP errors (app.js:1157-1167): the tick starts from an already parsed feed.
- `requestAnimationFrame` scheduling and `performance.now` (app.js:150-186): the clock is the parameter `now`, and a frame is a function of it. `cancelAnimationFrame` is modelled as replacing the glide.
- Polling and visibility handling (app.js:1205-1224): these are timers, plus the race between overlapping ticks.
- The trigonometry of `headingFromPoints` (app.js:236-251) and the projection inside `computeAnimMs` (app.js:141-145): both are function parameters.
- The contents of `TRIP_TO_LINE`: a table parameter.
- The `onFrame` callback that moves the labels along with a gliding marker (app.js:1132-1142), and the label text refresh on upsert (app.js:1144-1150): they move or redraw a label, but never create or remove one.
- The `ts` field of `lastPos` (app.js:1070): it is written and never read.
- `knownLines` (app.js:408, 1183): modelled only as a set that grows. Nothing in the core reads it.
- Text.UpperChar: upper-cases ASCII letters only. JavaScript's `toUpperCase` also maps non-ASCII letters, which no line code uses.
- Text.LowerChar: lower-cases ASCII letters only. JavaScript's `toLowerCase` also maps non-ASCII letters, but none of them lower-cases to a letter of "bus" or "buss", so the bus-word test (app.js:558-559) decides the same.
- Lines.FmtSpeed: speeds are integers. `Math.round` of a fractional speed is not modelled, and `NaN` is not modelled either. JavaScript writes integers of `1e21` and above in exponent notation, while `Decimal` always writes plain digits.
- Lines.DarkenHex: where the source's `parseInt` would return `NaN` or a partial value for a malformed colour, the result is `None`. Only palette colours reach it, and all of them parse (`Lines.PaletteColoursDarken`).
- Reconcile.Admit: coordinates that are present but not numbers are not modelled. The source only checks against `null`.
- Reconcile.Frame: requires every glide to have a positive duration. The source does not check this, but every duration comes from `computeAnimMs`, which never returns less than 350 (`Reconcile.InvGlides`).

=== FILE: animation.dfy ===
/** Marker animation maths (app.js:6-8, 132-186): the duration of a glide,
    the easing curve, the shortcut for a move too small to animate, and the
    position one animation frame draws. Pixel distances come from the map
    projection and enter as plain numbers; times are milliseconds. */
module Animation {

  import opened Wrappers
  import opened Geo

  const POLL_MS: real := 3000.0
  const ANIM_MIN_MS: real := 350.0
  /** `Math.min(POLL_MS * 0.85, 2500)`: a glide ends before the next poll. */
  const ANIM_MAX_MS: real := Min(POLL_MS * 0.85, 2500.0)
  /** Milliseconds of glide per pixel of on-screen distance. */
  const MS_PER_PX: real := 7.0
  /** Below this difference in both coordinates a move is not animated. */
  const SNAP_EPSILON: real := 0.00000001

  /** The glide bound works out to 2.5 seconds, under the poll interval. */
  lemma AnimMaxValue()
    ensures ANIM_MAX_MS == 2500.0
    ensures ANIM_MIN_MS < ANIM_MAX_MS < POLL_MS
  {
  }

  /** `clamp(n, a, b)`: `n` pulled into `[a, b]`. */
  function Clamp(n: real, a: real, b: real): (r: real)
    ensures a <= b ==> a <= r <= b
    ensures a <= n <= b ==> r == n
    ensures n < a ==> r == a
    ensures a <= b && b < n ==> r == b
  {
    Max(a, Min(b, n))
  }

  /** Clamping never reverses the order of two inputs. */
  lemma ClampMonotone(n1: real, n2: real, a: real, b: real)
    requires a <= b && n1 <= n2
    ensures Clamp(n1, a, b) <= Clamp(n2, a, b)
  {
  }

  /** `computeAnimMs` once the projection has produced the pixel distance:
      seven milliseconds per pixel, within the glide bounds. */
  function ComputeAnimMs(distPx: real): (ms: real)
    ensures ANIM_MIN_MS <= ms <= ANIM_MAX_MS
    ensures ANIM_MIN_MS <= distPx * MS_PER_PX <= ANIM_MAX_MS ==> ms == distPx * MS_PER_PX
    ensures distPx * MS_PER_PX <= ANIM_MIN_MS ==> ms == ANIM_MIN_MS
    ensures distPx * MS_PER_PX >= ANIM_MAX_MS ==> ms == ANIM_MAX_MS
  {
    AnimMaxValue();
    Clamp(distPx * MS_PER_PX, ANIM_MIN_MS, ANIM_MAX_MS)
  }

  /** A longer glide never gets a shorter duration. */
  lemma ComputeAnimMsMonotone(d1: real, d2: real)
    requires d1 <= d2
    ensures ComputeAnimMs(d1) <= ComputeAnimMs(d2)
  {
    AnimMaxValue();
    ClampMonotone(d1 * MS_PER_PX, d2 * MS_PER_PX, ANIM_MIN_MS, ANIM_MAX_MS);
  }

  /* Real-arithmetic facts the solver needs spelled out. */

  lemma MulNonNeg(a: real, b: real)
    requires 0.0 <= a && 0.0 <= b
    ensures 0.0 <= a * b
  {
  }

  lemma SquareNonNeg(z: real)
    ensures 0.0 <= z * z
  {
    if z < 0.0 {
      MulNonNeg(-z, -z);
    } else {
      MulNonNeg(z, z);
    }
  }

  lemma MulAtMost(d: real, e: real)
    requires 0.0 <= d && 0.0 <= e <= 1.0
    ensures 0.0 <= d * e <= d
  {
    MulNonNeg(d, e);
    MulNonNeg(d, 1.0 - e);
  }

  lemma DivMonotone(x1: real, x2: real, d: real)
    requires x1 <= x2 && d > 0.0
    ensures x1 / d <= x2 / d
  {
    MulNonNeg(x2 - x1, 1.0 / d);
  }

  lemma FractionBounds(x: real, d: real)
    requires d > 0.0
    ensures x >= 0.0 ==> x / d >= 0.0
    ensures x >= d ==> x / d >= 1.0
  {
    if x >= 0.0 {
      DivMonotone(0.0, x, d);
    }
    if x >= d {
      DivMonotone(d, x, d);
    }
  }

  function Cube(x: real): real {
    x * x * x
  }

  lemma {:induction false} CubeMonotone(x: real, y: real)
    requires x <= y
    ensures Cube(x) <= Cube(y)
  {
    // y^3 - x^3 = (y - x) (x^2 + x y + y^2), and the second factor is never negative.
    var q := x * x + x * y + y * y;
    SquareNonNeg(x + y);
    SquareNonNeg(x);
    SquareNonNeg(y);
    assert 2.0 * q == (x + y) * (x + y) + x * x + y * y;
    assert Cube(y) - Cube(x) == (y - x) * q;
    MulNonNeg(y - x, q);
  }

  lemma CubeDouble(x: real)
    ensures Cube(2.0 * x) == 8.0 * Cube(x)
  {
    var y := 2.0 * x;
    assert y * y == 4.0 * (x * x);
    assert (y * y) * y == (4.0 * (x * x)) * (2.0 * x);
  }

  /** The two halves of the easing curve stay within `[0, 1]` on their halves. */
  lemma EaseHalvesBounded(t: real)
    ensures 0.0 <= t < 0.5 ==> 0.0 <= 4.0 * Cube(t) <= 1.0
    ensures 0.5 <= t <= 1.0 ==> 0.0 <= 1.0 - Cube(-2.0 * t + 2.0) / 2.0 <= 1.0
  {
    if 0.0 <= t < 0.5 {
      CubeMonotone(0.0, t);
      CubeMonotone(t, 0.5);
    }
    if 0.5 <= t <= 1.0 {
      CubeMonotone(-2.0 * t + 2.0, 1.0);
      CubeMonotone(0.0, -2.0 * t + 2.0);
    }
  }

  /** `easeInOutCubic`. */
  function Ease(t: real): (e: real)
    ensures 0.0 <= t <= 1.0 ==> 0.0 <= e <= 1.0
  {
    EaseHalvesBounded(t);
    if t < 0.5 then 4.0 * Cube(t) else 1.0 - Cube(-2.0 * t + 2.0) / 2.0
  }

  /** The curve starts at 0, passes 1/2 at the midpoint and ends at 1. */
  lemma EaseEnds()
    ensures Ease(0.0) == 0.0 && Ease(0.5) == 0.5 && Ease(1.0) == 1.0
  {
  }

  /** The curve never goes backwards on `[0, 1]`. */
  lemma EaseMonotone(t1: real, t2: real)
    requires 0.0 <= t1 <= t2 <= 1.0
    ensures Ease(t1) <= Ease(t2)
  {
    if t2 < 0.5 {
      CubeMonotone(t1, t2);
    } else if t1 >= 0.5 {
      CubeMonotone(-2.0 * t2 + 2.0, -2.0 * t1 + 2.0);
    } else {
      assert Ease(t1) <= 0.5 by { CubeMonotone(t1, 0.5); }
      assert Ease(t2) >= 0.5 by { CubeMonotone(-2.0 * t2 + 2.0, 1.0); }
    }
  }

  /** The curve is point-symmetric about the midpoint: the second half mirrors the first. */
  lemma EaseSymmetric(t: real)
    requires 0.0 <= t <= 1.0
    ensures Ease(1.0 - t) == 1.0 - Ease(t)
  {
    if t < 0.5 {
      assert -2.0 * (1.0 - t) + 2.0 == 2.0 * t;
      CubeDouble(t);
    } else if t > 0.5 {
      assert -2.0 * t + 2.0 == 2.0 * (1.0 - t);
      CubeDouble(1.0 - t);
    }
  }

  /** A glide in progress (the `anim` record with the closure's `from`, `to`
      and `start` made explicit). */
  datatype Anim = Anim(from: Pos, to: Pos, start: real, durationMs: real)

  /** The drawn marker: where it is, and the glide it is on, if any. */
  datatype Marker = Marker(pos: Pos, anim: Option<Anim>)

  /** A move smaller than `SNAP_EPSILON` in both coordinates. */
  predicate Negligible(from: Pos, to: Pos) {
    Abs(from.lat - to.lat) < SNAP_EPSILON && Abs(from.lon - to.lon) < SNAP_EPSILON
  }

  /** `animateTrainTo` at the moment it is called, `now` being
      `performance.now()`: a negligible move places the marker at once and
      leaves no glide; any other move starts a glide from where the marker is
      drawn. Starting a glide replaces the one in progress. */
  function AnimateTo(current: Pos, to: Pos, durationMs: real, now: real): (m: Marker)
    ensures Negligible(current, to) ==> m.pos == to && m.anim.None?
    ensures !Negligible(current, to) ==> m.pos == current && m.anim.Some?
    ensures m.anim.Some? ==> m.anim.value.from == m.pos && m.anim.value.to == to
                             && m.anim.value.start == now && m.anim.value.durationMs == durationMs
  {
    if Negligible(current, to) then Marker(to, None)
    else Marker(current, Some(Anim(current, to, now, durationMs)))
  }

  lemma LerpBetween(a: real, b: real, e: real)
    ensures 0.0 <= e <= 1.0 ==> Min(a, b) <= a + (b - a) * e <= Max(a, b)
  {
    if 0.0 <= e <= 1.0 {
      if a <= b {
        MulAtMost(b - a, e);
      } else {
        MulAtMost(a - b, e);
        assert (b - a) * e == -((a - b) * e);
      }
    }
  }

  /** Linear interpolation of one coordinate. */
  function Lerp(a: real, b: real, e: real): (x: real)
    ensures 0.0 <= e <= 1.0 ==> Min(a, b) <= x <= Max(a, b)
  {
    LerpBetween(a, b, e);
    a + (b - a) * e
  }

  /** The fraction of the glide done at `now`, as `step` computes it. */
  function Progress(a: Anim, now: real): (t: real)
    requires a.durationMs > 0.0
    ensures t <= 1.0
    ensures now >= a.start ==> 0.0 <= t
    ensures now >= a.start + a.durationMs ==> t == 1.0
  {
    FractionBounds(now - a.start, a.durationMs);
    Min(1.0, (now - a.start) / a.durationMs)
  }

  /** One animation frame (`step`, app.js:169-184): the drawn position, and
      whether the glide goes on. */
  function FrameStep(a: Anim, now: real): (m: Marker)
    requires a.durationMs > 0.0
    ensures m.anim.Some? ==> m.anim == Some(a)
  {
    var t := Progress(a, now);
    var e := Ease(t);
    var pos := Pos(Lerp(a.from.lat, a.to.lat, e), Lerp(a.from.lon, a.to.lon, e));
    Marker(pos, if t < 1.0 then Some(a) else None)
  }

  /** A frame at or after the glide's end draws the destination and ends the glide. */
  lemma FrameAtEndArrives(a: Anim, now: real)
    requires a.durationMs > 0.0 && now >= a.start + a.durationMs
    ensures FrameStep(a, now) == Marker(a.to, None)
  {
    var t := Progress(a, now);
    EaseEnds();
    assert Ease(t) == 1.0;
    LerpAtOne(a.from.lat, a.to.lat);
    LerpAtOne(a.from.lon, a.to.lon);
  }

  /** Interpolating all the way lands on the end point. */
  lemma LerpAtOne(x: real, y: real)
    ensures Lerp(x, y, 1.0) == y
  {
  }

  /** Whichever frame ends a glide draws its destination, so a settled marker
      sits where the last update sent it. */
  lemma FrameEndsAtDestination(a: Anim, now: real)
    requires a.durationMs > 0.0
    ensures FrameStep(a, now).anim.None? ==> FrameStep(a, now).pos == a.to
  {
    var t := Progress(a, now);
    if t >= 1.0 {
      EaseEnds();
      assert Ease(t) == 1.0;
      LerpAtOne(a.from.lat, a.to.lat);
      LerpAtOne(a.from.lon, a.to.lon);
    }
  }

  /** A frame at the glide's start draws its origin. */
  lemma FrameAtStartStays(a: Anim)
    requires a.durationMs > 0.0
    ensures FrameStep(a, a.start).pos == a.from
    ensures FrameStep(a, a.start).anim == Some(a)
  {
    assert (a.start - a.start) / a.durationMs == 0.0;
    assert Progress(a, a.start) == 0.0;
    EaseEnds();
    assert Lerp(a.from.lat, a.to.lat, 0.0) == a.from.lat;
    assert Lerp(a.from.lon, a.to.lon, 0.0) == a.from.lon;
  }

  /** Every frame of a glide draws the marker inside the box spanned by its
      origin and destination: the easing never overshoots. */
  lemma FrameStaysBetween(a: Anim, now: real)
    requires a.durationMs > 0.0 && now >= a.start
    ensures var p := FrameStep(a, now).pos;
            Min(a.from.lat, a.to.lat) <= p.lat <= Max(a.from.lat, a.to.lat)
            && Min(a.from.lon, a.to.lon) <= p.lon <= Max(a.from.lon, a.to.lon)
  {
  }

  /** Later frames are never further from the destination: the glide is
      monotone in each coordinate. */
  lemma FrameProgresses(a: Anim, now1: real, now2: real)
    requires a.durationMs > 0.0 && a.start <= now1 <= now2
    ensures var e1 := Ease(Progress(a, now1));
            var e2 := Ease(Progress(a, now2));
            e1 <= e2
  {
    var t1 := Progress(a, now1);
    var t2 := Progress(a, now2);
    DivMonotone(now1 - a.start, now2 - a.start, a.durationMs);
    EaseMonotone(t1, t2);
  }
}

=== FILE: geo.dfy ===
/** Geographic positions and the small real-number helpers shared by the model. */
module Geo {

  /** A latitude/longitude pair, in degrees. */
  datatype Pos = Pos(lat: real, lon: real)

  function Abs(x: real): real {
    if x < 0.0 then -x else x
  }

  /** `Math.min` on two (finite) numbers. */
  function Min(a: real, b: real): real {
    if a <= b then a else b
  }

  /** `Math.max` on two (finite) numbers. */
  function Max(a: real, b: real): real {
    if a >= b then a else b
  }
}

=== FILE: heading.dfy ===
/** Heading inference: the bearing block of `upsertVehicle` (app.js:1037-1070)
    and the "pop" cue of an arrow that gains a heading (app.js:1118-1119).

    Each tracked vehicle remembers its last position, its last bearing and
    whether a bearing was ever established. A finite reported bearing above
    zero wins; otherwise a move of more than `MOVE_EPSILON` degrees in either
    coordinate yields a computed heading; otherwise an established bearing is
    reused; otherwise the heading stays unknown. */
module Heading {

  import opened Wrappers
  import opened Geo

  /** A compass heading as `headingFromPoints` returns it: `(θ + 360) % 360`. */
  type Degrees = r: real | 0.0 <= r < 360.0

  /** The movement threshold of app.js:1047-1049, in degrees of latitude or longitude. */
  const MOVE_EPSILON: real := 0.00002

  /** The per-vehicle maps `lastPos`, `lastBearing` and `bearingEstablished`. */
  datatype Memory = Memory(lastPos: Option<Pos>, lastBearing: Option<real>, established: bool)

  /** What the maps hold for a vehicle never seen (or evicted). */
  const FORGOTTEN: Memory := Memory(None, None, false)

  /** The two maps that hold a bearing agree: a bearing is remembered exactly
      when one was established (both are written together at app.js:1057-1060
      and deleted together at app.js:995-997 and 1014-1016). */
  predicate Coherent(m: Memory) {
    m.established <==> m.lastBearing.Some?
  }

  /** `Number.isFinite(v.bearing) && v.bearing > 0`; a missing or non-finite
      bearing is `None`. */
  predicate Usable(reported: Option<real>)
    // A missing bearing and a bearing of exactly 0 are both ignored.
    ensures reported.None? || reported == Some(0.0) ==> !Usable(reported)
    ensures Usable(reported) ==> reported.Some? && reported.value > 0.0
    // ... and every report above zero is used.
    ensures reported.Some? && reported.value > 0.0 ==> Usable(reported)
  {
    reported.Some? && reported.value > 0.0
  }

  /** A move of more than the threshold in latitude or in longitude. */
  predicate Moved(prev: Pos, cur: Pos)
    // The test does not depend on the direction of travel ...
    ensures Moved(prev, cur) <==> Abs(prev.lat - cur.lat) > MOVE_EPSILON || Abs(prev.lon - cur.lon) > MOVE_EPSILON
    // ... a vehicle that stays put has not moved, and one axis is enough.
    ensures Moved(prev, cur) ==> prev != cur
    ensures Abs(cur.lat - prev.lat) > MOVE_EPSILON ==> Moved(prev, cur)
    ensures Abs(cur.lon - prev.lon) > MOVE_EPSILON ==> Moved(prev, cur)
  {
    Abs(cur.lat - prev.lat) > MOVE_EPSILON || Abs(cur.lon - prev.lon) > MOVE_EPSILON
  }

  /** The result of the bearing block: the updated maps and the bearing the
      arrow is drawn with (`None` is the source's `null`). */
  datatype Inference = Inference(memory: Memory, bearing: Option<real>)

  /** The bearing block of `upsertVehicle`, step by step as the source runs it.
      `heading` stands for `headingFromPoints` (app.js:236-251). */
  function Infer(m: Memory, reported: Option<real>, cur: Pos, heading: (Pos, Pos) -> Degrees): (r: Inference)
    // Rule 1: a usable reported bearing is used verbatim.
    ensures Usable(reported) ==> r.bearing == reported
    // Rule 2: otherwise a move from the previous position gives the computed heading.
    ensures !Usable(reported) && m.lastPos.Some? && Moved(m.lastPos.value, cur) ==>
              r.bearing == Some(heading(m.lastPos.value, cur) as real)
    // Rule 3: otherwise an established bearing is reused.
    ensures !Usable(reported) && !(m.lastPos.Some? && Moved(m.lastPos.value, cur)) && m.established ==>
              r.bearing == m.lastBearing
    // Rule 4: otherwise the heading is unknown.
    ensures !Usable(reported) && !(m.lastPos.Some? && Moved(m.lastPos.value, cur)) && !m.established ==>
              r.bearing == None
    ensures r.memory.lastPos == Some(cur)
    ensures m.established ==> r.memory.established
    ensures Coherent(m) ==> Coherent(r.memory)
  {
    // app.js:1040-1046
    var fromReport: Option<real> := if Usable(reported) then reported else None;
    // app.js:1048-1055
    var computed: Option<real> :=
      if fromReport.None? && m.lastPos.Some? && Moved(m.lastPos.value, cur)
      then Some(heading(m.lastPos.value, cur) as real)
      else fromReport;
    var establishedNow := computed.Some?;
    // app.js:1057-1060
    var m1 := if establishedNow then m.(established := true, lastBearing := computed) else m;
    // app.js:1062-1068
    var bearing := if computed.None? && m1.established && m1.lastBearing.Some? then m1.lastBearing else computed;
    // app.js:1070
    Inference(m1.(lastPos := Some(cur)), bearing)
  }

  /** `const pop = !hadBearingBefore && hasBearingNow`: the arrow gains a heading. */
  function Pop(hadBearing: bool, bearing: Option<real>): (pop: bool)
    ensures pop ==> bearing.Some?
    ensures hadBearing ==> !pop
  {
    !hadBearing && bearing.Some?
  }

  /** Once a bearing is established the arrow always has one: every later
      update yields a bearing, and it is the one remembered. */
  lemma EstablishedNeverLost(m: Memory, reported: Option<real>, cur: Pos, heading: (Pos, Pos) -> Degrees)
    requires Coherent(m) && m.established
    ensures Infer(m, reported, cur, heading).bearing.Some?
    ensures Infer(m, reported, cur, heading).bearing == Infer(m, reported, cur, heading).memory.lastBearing
  {
  }

  /** Whenever an update yields a bearing, that bearing is remembered and established. */
  lemma BearingIsRemembered(m: Memory, reported: Option<real>, cur: Pos, heading: (Pos, Pos) -> Degrees)
    requires Coherent(m)
    ensures var r := Infer(m, reported, cur, heading);
            r.bearing.Some? <==> r.memory.established
    ensures var r := Infer(m, reported, cur, heading);
            r.bearing.Some? ==> r.memory.lastBearing == r.bearing
  {
  }

  /** A vehicle seen for the first time gets a heading only from its report. */
  lemma FirstSightingUsesReportOnly(reported: Option<real>, cur: Pos, heading: (Pos, Pos) -> Degrees)
    ensures Infer(FORGOTTEN, reported, cur, heading).bearing == (if Usable(reported) then reported else None)
  {
  }

  /** A bearing of exactly 0 counts as unreported (the source's `> 0` test), so
      a standing vehicle that reports north has no heading until it moves. */
  lemma ZeroBearingIsUnknown(cur: Pos, heading: (Pos, Pos) -> Degrees)
    ensures Infer(FORGOTTEN, Some(0.0), cur, heading).bearing == None
    ensures !Infer(FORGOTTEN, Some(0.0), cur, heading).memory.established
  {
  }

  /** A movement along one axis only is enough: the source tests latitude
      OR longitude, so a vehicle whose latitude is unchanged but whose
      longitude moved past the threshold gets the computed heading (and the
      same with the axes swapped), that heading becomes established, and the
      arrow pops exactly when it had no bearing before. */
  lemma OneAxisMoveGivesHeading(m: Memory, reported: Option<real>, cur: Pos, heading: (Pos, Pos) -> Degrees, hadBearing: bool)
    requires m.lastPos.Some? && !Usable(reported)
    ensures var prev := m.lastPos.value;
            var r := Infer(m, reported, cur, heading);
            (cur.lat == prev.lat && Abs(cur.lon - prev.lon) > MOVE_EPSILON) ||
            (cur.lon == prev.lon && Abs(cur.lat - prev.lat) > MOVE_EPSILON) ==>
              r.bearing == Some(heading(prev, cur) as real) && r.memory.established
              && r.memory.lastBearing == r.bearing
              && Pop(hadBearing, r.bearing) == !hadBearing
  {
  }

  /** A jitter no larger than the threshold on both axes keeps the
      remembered bearing of an established vehicle that reports none. */
  lemma JitterKeepsBearing(m: Memory, reported: Option<real>, cur: Pos, heading: (Pos, Pos) -> Degrees)
    requires Coherent(m) && m.established && m.lastPos.Some? && !Usable(reported)
    ensures !Moved(m.lastPos.value, cur) ==>
              Infer(m, reported, cur, heading).bearing == m.lastBearing
              && Infer(m, reported, cur, heading).bearing.Some?
              && Infer(m, reported, cur, heading).memory.lastBearing == m.lastBearing
  {
  }

  /** Over a run of updates the arrow pops at most once: after the first
      update with a bearing, `hasBearing` never turns false again. */
  function Run(m: Memory, hasBearing: bool, reports: seq<(Option<real>, Pos)>, heading: (Pos, Pos) -> Degrees): (r: (Memory, bool, nat))
    ensures Coherent(m) && (hasBearing ==> m.established) ==> Coherent(r.0) && (r.1 ==> r.0.established)
    ensures m.established ==> r.0.established
    ensures Coherent(m) && hasBearing && m.established ==> r.2 == 0
    decreases |reports|
  {
    if |reports| == 0 then (m, hasBearing, 0)
    else
      var i := Infer(m, reports[0].0, reports[0].1, heading);
      var pop := Pop(hasBearing, i.bearing);
      var rest := Run(i.memory, i.bearing.Some?, reports[1..], heading);
      (rest.0, rest.1, rest.2 + (if pop then 1 else 0))
  }

  /** The pop count of any run is at most one. */
  lemma {:induction false} PopsAtMostOnce(m: Memory, hasBearing: bool, reports: seq<(Option<real>, Pos)>, heading: (Pos, Pos) -> Degrees)
    requires Coherent(m) && (hasBearing ==> m.established)
    ensures Run(m, hasBearing, reports, heading).2 <= 1
    decreases |reports|
  {
    if |reports| > 0 {
      var i := Infer(m, reports[0].0, reports[0].1, heading);
      BearingIsRemembered(m, reports[0].0, reports[0].1, heading);
      if i.bearing.Some? {
        var rest := Run(i.memory, true, reports[1..], heading);
        assert rest.2 == 0;
      } else {
        PopsAtMostOnce(i.memory, false, reports[1..], heading);
      }
    }
  }
}

=== FILE: labels.dfy ===
/** The hover/pin label state machine (app.js:24-127, 986-1027, 1087-1102).

    At most one hover label and one pinned label exist. The source keeps each
    as an id variable next to a marker variable; here both become fields of
    one record, the marker reduced to whether it exists. `pointerOver` is
    `isPointerOverTrain`. */
module Labels {

  import opened Wrappers

  /** A vehicle id as the feed delivers it. */
  type Id = string

  datatype LabelState = LabelState(
    hoverId: Option<Id>,
    hoverLabel: bool,
    pinnedId: Option<Id>,
    pinnedLabel: bool,
    pointerOver: bool)

  /** The state the page starts in (app.js:27-33). */
  const INITIAL: LabelState := LabelState(None, false, None, false, false)

  /** The label invariant: an id is set exactly when its label exists, and the
      hovered vehicle is never the pinned one. */
  predicate Inv(l: LabelState) {
    (l.hoverId.Some? <==> l.hoverLabel)
    && (l.pinnedId.Some? <==> l.pinnedLabel)
    && (l.hoverId.Some? && l.pinnedId.Some? ==> l.hoverId != l.pinnedId)
  }

  /** JavaScript truthiness of an id variable: set and not the empty string. */
  predicate Truthy(id: Option<Id>) {
    id.Some? && id.value != ""
  }

  /** The pinned part of the state, which hover events must leave alone. */
  function Pinned(l: LabelState): (Option<Id>, bool) {
    (l.pinnedId, l.pinnedLabel)
  }

  /** `hideHoverLabel(id)` (app.js:40-49): only the hover label of that vehicle
      is removed, and never while it is the pinned one. */
  function HideHover(l: LabelState, id: Id): (r: LabelState)
    ensures Pinned(r) == Pinned(l) && r.pointerOver == l.pointerOver
    ensures l.hoverId == Some(id) && l.pinnedId != Some(id) ==> r.hoverId.None? && !r.hoverLabel
    ensures r.hoverId.Some? ==> r.hoverId == l.hoverId
    ensures l.hoverId != Some(id) ==> r == l
    ensures Inv(l) ==> Inv(r)
  {
    if l.hoverId != Some(id) then l
    else if l.pinnedId == Some(id) then l
    else l.(hoverLabel := false, hoverId := None)
  }

  /** `showHoverLabel(v)` (app.js:51-72): shows the hover label for `id`
      (replacing another vehicle's hover label), unless `id` is pinned. */
  function ShowHover(l: LabelState, id: Id): (r: LabelState)
    ensures Pinned(r) == Pinned(l) && r.pointerOver == l.pointerOver
    ensures l.pinnedId == Some(id) ==> r == l
    ensures l.pinnedId != Some(id) ==> r.hoverId == Some(id) && r.hoverLabel
    ensures Inv(l) ==> Inv(r)
  {
    if l.pinnedId == Some(id) then l
    else
      var l1 := if Truthy(l.hoverId) && l.hoverId != Some(id) && l.hoverLabel
                then l.(hoverLabel := false) else l;
      // The label is created if missing, otherwise moved and given the new text.
      l1.(hoverId := Some(id), hoverLabel := true)
  }

  /** `togglePinnedLabel(v)` (app.js:74-99): clears the hover label, then
      unpins `id` if it is pinned and pins it otherwise. */
  function TogglePinned(l: LabelState, id: Id): (r: LabelState)
    ensures !r.pointerOver
    ensures l.hoverLabel ==> r.hoverId.None? && !r.hoverLabel
    ensures l.pinnedId == Some(id) ==> r.pinnedId.None? && !r.pinnedLabel
    ensures l.pinnedId != Some(id) ==> r.pinnedId == Some(id) && r.pinnedLabel
    ensures r.hoverId.Some? ==> r.hoverId == l.hoverId
    ensures r.pinnedId.Some? ==> r.pinnedId == Some(id)
    ensures Inv(l) ==> Inv(r)
  {
    var l1 := if l.hoverLabel then l.(hoverLabel := false, hoverId := None) else l;
    var l2 := l1.(pointerOver := false);
    if l2.pinnedId == Some(id) then l2.(pinnedLabel := false, pinnedId := None)
    else l2.(pinnedId := Some(id), pinnedLabel := true)
  }

  /** A click on the map background (app.js:101-116): both labels go. */
  function MapClick(l: LabelState): (r: LabelState)
    ensures !r.pointerOver && !r.hoverLabel && !r.pinnedLabel
    ensures Inv(l) ==> r.hoverId.None? && r.pinnedId.None?
    ensures Inv(l) ==> Inv(r)
  {
    var l1 := if l.pinnedLabel then l.(pinnedLabel := false, pinnedId := None) else l;
    var l2 := if l1.hoverLabel then l1.(hoverLabel := false, hoverId := None) else l1;
    l2.(pointerOver := false)
  }

  /** Pointer movement over the map (app.js:118-127): a hover label left
      behind once the pointer is off every vehicle is removed. */
  function MouseMove(l: LabelState): (r: LabelState)
    ensures Pinned(r) == Pinned(l) && r.pointerOver == l.pointerOver
    ensures l.pointerOver ==> r == l
    ensures Inv(l) && !l.pointerOver && Truthy(l.hoverId) ==> r.hoverId.None? && !r.hoverLabel
    ensures r.hoverId.Some? ==> r.hoverId == l.hoverId
    ensures Inv(l) ==> Inv(r)
  {
    if !l.pointerOver && Truthy(l.hoverId) && l.hoverLabel && l.pinnedId != l.hoverId
    then HideHover(l, l.hoverId.value)
    else l
  }

  /** Pointer enters vehicle `id`'s arrow (app.js:1087-1091); `tracked` says
      whether the marker map still holds the vehicle. */
  function MouseOver(l: LabelState, id: Id, tracked: bool): (r: LabelState)
    ensures r.pointerOver
    ensures Pinned(r) == Pinned(l)
    ensures tracked && l.pinnedId != Some(id) ==> r.hoverId == Some(id) && r.hoverLabel
    ensures !tracked ==> r == l.(pointerOver := true)
    ensures Inv(l) ==> Inv(r)
  {
    var l1 := l.(pointerOver := true);
    if tracked then ShowHover(l1, id) else l1
  }

  /** Pointer leaves vehicle `id`'s arrow (app.js:1093-1096). */
  function MouseOut(l: LabelState, id: Id): (r: LabelState)
    ensures !r.pointerOver
    ensures Pinned(r) == Pinned(l)
    ensures l.pinnedId != Some(id) ==> r.hoverId != Some(id)
    ensures r.hoverId.Some? ==> r.hoverId == l.hoverId
    ensures Inv(l) ==> Inv(r)
  {
    HideHover(l.(pointerOver := false), id)
  }

  /** A click on vehicle `id`'s arrow (app.js:1098-1102). */
  function MarkerClick(l: LabelState, id: Id, tracked: bool): (r: LabelState)
    ensures !tracked ==> r == l
    ensures tracked ==> r == TogglePinned(l, id)
    ensures Inv(l) ==> Inv(r)
  {
    if tracked then TogglePinned(l, id) else l
  }

  /** The label part of `removeVehicleCompletely(id)` (app.js:999-1005):
      no label refers to `id` afterwards and the other label is untouched. */
  function Evict(l: LabelState, id: Id): (r: LabelState)
    ensures Inv(l) ==> Inv(r)
    ensures Inv(l) ==> r.hoverId != Some(id) && r.pinnedId != Some(id)
    ensures l.hoverId != Some(id) ==> r.hoverId == l.hoverId && r.hoverLabel == l.hoverLabel
    ensures l.pinnedId != Some(id) ==> Pinned(r) == Pinned(l)
    ensures r.pointerOver == l.pointerOver
    ensures r.hoverId.Some? ==> r.hoverId == l.hoverId
    ensures r.pinnedId.Some? ==> r.pinnedId == l.pinnedId
  {
    var l1 := if l.hoverId == Some(id) then HideHover(l, id) else l;
    if l1.pinnedId == Some(id) then l1.(pinnedLabel := false, pinnedId := None) else l1
  }

  /** The label part of `removeAllNow` (app.js:1018-1027). */
  function ClearAll(l: LabelState): (r: LabelState)
    ensures !r.hoverLabel && !r.pinnedLabel && r.pointerOver == l.pointerOver
    ensures Inv(l) ==> r.hoverId.None? && r.pinnedId.None?
    ensures Inv(l) ==> Inv(r)
  {
    var l1 := if l.hoverLabel then l.(hoverLabel := false, hoverId := None) else l;
    if l1.pinnedLabel then l1.(pinnedLabel := false, pinnedId := None) else l1
  }

  /** Evicting every id of a set at once: a label goes exactly when its
      vehicle is in the set. */
  function EvictSet(l: LabelState, ids: set<Id>): (r: LabelState)
    ensures Inv(l) ==> Inv(r)
    ensures r.hoverId.Some? ==> r.hoverId.value !in ids
    ensures r.pinnedId.Some? ==> r.pinnedId.value !in ids
    ensures l.hoverId.Some? && l.hoverId.value !in ids ==> r.hoverId == l.hoverId
    ensures l.pinnedId.Some? && l.pinnedId.value !in ids ==> r.pinnedId == l.pinnedId
    ensures r.hoverId.Some? ==> r.hoverId == l.hoverId
    ensures r.pinnedId.Some? ==> r.pinnedId == l.pinnedId
    ensures r.pointerOver == l.pointerOver
  {
    var l1 := if l.hoverId.Some? && l.hoverId.value in ids then l.(hoverLabel := false, hoverId := None) else l;
    if l1.pinnedId.Some? && l1.pinnedId.value in ids then l1.(pinnedLabel := false, pinnedId := None) else l1
  }

  /** Evicting the ids one after another, in the order given (the sweep of
      app.js:1194-1196 walks the marker map in its own order). */
  function EvictAll(l: LabelState, ids: seq<Id>): (r: LabelState)
    ensures Inv(l) ==> Inv(r)
    decreases |ids|
  {
    if |ids| == 0 then l else EvictAll(Evict(l, ids[0]), ids[1..])
  }

  /** Evicting one id is evicting the singleton set. */
  lemma EvictIsEvictSet(l: LabelState, id: Id)
    requires Inv(l)
    ensures Evict(l, id) == EvictSet(l, {id})
  {
  }

  /** Evicting a set in two steps is evicting the union. */
  lemma EvictSetUnion(l: LabelState, a: set<Id>, b: set<Id>)
    requires Inv(l)
    ensures EvictSet(EvictSet(l, a), b) == EvictSet(l, a + b)
  {
  }

  /** The order of a sweep does not matter: evicting a sequence of ids one by
      one, in any order, is evicting the set of them at once. */
  lemma {:induction false} EvictAllIsEvictSet(l: LabelState, ids: seq<Id>)
    requires Inv(l)
    ensures EvictAll(l, ids) == EvictSet(l, set i | i in ids)
    decreases |ids|
  {
    if |ids| == 0 {
      assert EvictSet(l, {}) == l;
    } else {
      var rest := ids[1..];
      EvictIsEvictSet(l, ids[0]);
      EvictAllIsEvictSet(Evict(l, ids[0]), rest);
      EvictSetUnion(l, {ids[0]}, set i | i in rest);
      assert (set i | i in ids) == {ids[0]} + (set i | i in rest);
    }
  }

  /** Two sweeps over the same ids in different orders leave the same labels. */
  lemma EvictOrderIrrelevant(l: LabelState, ids1: seq<Id>, ids2: seq<Id>)
    requires Inv(l)
    requires forall i :: i in ids1 <==> i in ids2
    ensures EvictAll(l, ids1) == EvictAll(l, ids2)
  {
    EvictAllIsEvictSet(l, ids1);
    EvictAllIsEvictSet(l, ids2);
    assert (set i | i in ids1) == (set i | i in ids2);
  }

  /** A hover event sequence never touches the pinned label: hovering,
      leaving and moving over the map in any order. */
  datatype HoverEvent = Over(id: Id, tracked: bool) | Out(id: Id) | Move

  function ApplyHover(l: LabelState, e: HoverEvent): (r: LabelState)
    ensures Pinned(r) == Pinned(l)
    ensures Inv(l) ==> Inv(r)
  {
    match e
    case Over(id, tracked) => MouseOver(l, id, tracked)
    case Out(id) => MouseOut(l, id)
    case Move => MouseMove(l)
  }

  function ApplyHovers(l: LabelState, es: seq<HoverEvent>): (r: LabelState)
    decreases |es|
  {
    if |es| == 0 then l else ApplyHovers(ApplyHover(l, es[0]), es[1..])
  }

  /** Any run of hover events keeps the invariant and the pinned label. */
  lemma {:induction false} HoversKeepPinned(l: LabelState, es: seq<HoverEvent>)
    requires Inv(l)
    ensures Pinned(ApplyHovers(l, es)) == Pinned(l)
    ensures Inv(ApplyHovers(l, es))
    decreases |es|
  {
    if |es| > 0 {
      HoversKeepPinned(ApplyHover(l, es[0]), es[1..]);
    }
  }

  /** Pinning the hovered vehicle moves its label from hover to pinned, and
      clicking it again removes every label. */
  lemma PinThenUnpin(l: LabelState, id: Id)
    requires Inv(l) && l.hoverId == Some(id)
    ensures var p := TogglePinned(l, id);
            p.pinnedId == Some(id) && p.hoverId.None?
    ensures var u := TogglePinned(TogglePinned(l, id), id);
            u.pinnedId.None? && u.hoverId.None? && !u.pinnedLabel && !u.hoverLabel
  {
  }
}

=== FILE: lines.dfy ===
/** The line classifier: canonical line codes, the rail palette, the darker
    stroke shade and the text of a vehicle label (app.js:36-38, 193-256, 353). */
module Lines {

  import opened Wrappers
  import opened Text

  /** The trip-table `type` value that marks a bus. */
  const BUS_TYPE: int := 700

  /* ---------------- normalizeLine ---------------- */

  /** Where the leftmost match of `/(\d+\s*[A-Z]+|\d+)/i` lies in a string:
      its digits are `[start, digitsEnd)`, the whitespace after them is
      `[digitsEnd, gapEnd)`, and, when a letter follows that whitespace, the
      match goes on with the letters `[gapEnd, end)`; otherwise it ends with
      the digits (`end == digitsEnd`). */
  datatype Match = Match(start: nat, digitsEnd: nat, gapEnd: nat, end: nat)

  /** Whether the match takes the first alternative, `\d+\s*[A-Z]+`. */
  predicate HasLetters(s: string, m: Match) {
    m.gapEnd < |s| && IsLetter(s[m.gapEnd])
  }

  /** The leftmost match of `/(\d+\s*[A-Z]+|\d+)/i` in `s`. Every match starts
      with a digit, so the leftmost one starts at the first digit and takes
      the whole digit run (`\d+` is greedy); the first alternative wins when
      the whitespace after the digits is followed by a letter, and then takes
      the whole letter run. */
  function MatchSpan(s: string): (r: Option<Match>)
    ensures r.None? <==> NoDigits(s)
    ensures r.Some? ==> r.value.start < r.value.end <= |s|
    ensures r.Some? ==> var m := r.value;
            && m.start < m.digitsEnd <= m.gapEnd <= |s|
            && (forall k :: 0 <= k < m.start ==> !IsDigit(s[k]))
            && (forall k :: m.start <= k < m.digitsEnd ==> IsDigit(s[k]))
            && (m.digitsEnd == |s| || !IsDigit(s[m.digitsEnd]))
            && (forall k :: m.digitsEnd <= k < m.gapEnd ==> IsSpace(s[k]))
            && (m.gapEnd == |s| || !IsSpace(s[m.gapEnd]))
    ensures r.Some? && HasLetters(s, r.value) ==> var m := r.value;
            && m.gapEnd < m.end <= |s|
            && (forall k :: m.gapEnd <= k < m.end ==> IsLetter(s[k]))
            && (m.end == |s| || !IsLetter(s[m.end]))
    ensures r.Some? && !HasLetters(s, r.value) ==> r.value.end == r.value.digitsEnd
  {
    match FirstDigit(s, 0)
    case None => None
    case Some(i) =>
      var d := RunEnd(s, i, IsDigit);
      var w := RunEnd(s, d, IsSpace);
      if w < |s| && IsLetter(s[w]) then Some(Match(i, d, w, RunEnd(s, w, IsLetter)))
      else Some(Match(i, d, w, d))
  }

  /** `normalizeLine`: trim, keep the leftmost "digits [spaces] letters" or
      "digits" match (the whole trimmed text when there is no digit), remove
      whitespace, upper-case. */
  function NormalizeLine(raw: string): (code: string)
    ensures NoSpaces(code) && NoLower(code)
  {
    var s := Trim(raw);
    var piece := match MatchSpan(s) case Some(m) => s[m.start..m.end] case None => s;
    Upper(StripSpaces(piece))
  }

  /** Upper-casing distributes over concatenation. */
  lemma UpperAppend(a: string, b: string)
    ensures Upper(a + b) == Upper(a) + Upper(b)
  {
    assert forall k :: 0 <= k < |a + b| ==> Upper(a + b)[k] == (Upper(a) + Upper(b))[k];
  }

  /** Digits are not changed by upper-casing or by removing whitespace. */
  lemma DigitsStay(digits: string)
    requires forall k :: 0 <= k < |digits| ==> IsDigit(digits[k])
    ensures Upper(digits) == digits && NoSpaces(digits)
  {
  }

  /** A piece of digits, whitespace and letters loses its whitespace and has
      its letters upper-cased. */
  lemma {:induction false} PieceNormalizes(s: string, i: nat, d: nat, w: nat, j: nat)
    requires i <= d <= w <= j <= |s|
    requires forall k :: i <= k < d ==> IsDigit(s[k])
    requires forall k :: d <= k < w ==> IsSpace(s[k])
    requires forall k :: w <= k < j ==> IsLetter(s[k])
    ensures Upper(StripSpaces(s[i..j])) == s[i..d] + Upper(s[w..j])
  {
    var digits := s[i..d];
    var gap := s[d..w];
    var letters := s[w..j];
    DigitsStay(digits);
    assert s[i..j] == digits + gap + letters by {
      assert s[i..j] == s[i..d] + s[d..j];
      assert s[d..j] == s[d..w] + s[w..j];
    }
    assert NoSpaces(letters) by {
      assert forall k :: 0 <= k < |letters| ==> letters[k] == s[w + k];
    }
    StripGap(digits, gap, letters);
    UpperAppend(digits, letters);
  }

  /** What `normalizeLine` extracts: the digits of the leftmost match followed
      by its letters in upper case, the whitespace between them dropped
      ("Line 43 x" gives "43X", "7" gives "7"); without any digit, the whole
      text with its whitespace removed, upper-cased ("__bus__" gives "__BUS__"). */
  lemma NormalizeExtracts(raw: string)
    ensures var s := Trim(raw);
            match MatchSpan(s)
            case None => NormalizeLine(raw) == Upper(StripSpaces(raw))
            case Some(m) =>
              NormalizeLine(raw) == s[m.start..m.digitsEnd]
                + (if HasLetters(s, m) then Upper(s[m.gapEnd..m.end]) else "")
  {
    var s := Trim(raw);
    match MatchSpan(s)
    case None =>
      TrimOnlyRemovesSpaces(raw);
    case Some(m) =>
      if HasLetters(s, m) {
        PieceNormalizes(s, m.start, m.digitsEnd, m.gapEnd, m.end);
      } else {
        PieceNormalizes(s, m.start, m.digitsEnd, m.digitsEnd, m.digitsEnd);
      }
  }

  /** The shape of every canonical line code: no whitespace, no lower-case
      letter, and, when it holds a digit, a run of digits followed only by
      upper-case letters ("43X", "7", "__BUS__"). */
  predicate IsCanonical(code: string) {
    && NoSpaces(code)
    && NoLower(code)
    && (NoDigits(code)
        || (var d := RunEnd(code, 0, IsDigit);
            d > 0 && forall k :: d <= k < |code| ==> IsUpper(code[k])))
  }

  /** Upper-casing digits followed by letters gives the digits followed by
      upper-case letters. */
  lemma UpperDigitsLetters(digits: string, letters: string)
    requires |digits| > 0
    requires forall k :: 0 <= k < |digits| ==> IsDigit(digits[k])
    requires forall k :: 0 <= k < |letters| ==> IsLetter(letters[k])
    ensures IsCanonical(Upper(digits + letters))
  {
    var t := digits + letters;
    var code := Upper(t);
    var n := |digits|;
    assert forall k :: 0 <= k < n ==> t[k] == digits[k];
    assert forall k :: n <= k < |t| ==> t[k] == letters[k - n];
    assert forall k :: 0 <= k < n ==> IsDigit(code[k]);
    assert forall k :: n <= k < |code| ==> IsUpper(code[k]);
    var e := RunEnd(code, 0, IsDigit);
    if n < |code| {
      assert !IsDigit(code[n]);
    }
    assert e == n;
  }

  /** Removing the whitespace between a digit run and a letter run joins them. */
  lemma {:induction false} StripGap(digits: string, gap: string, letters: string)
    requires NoSpaces(digits) && NoSpaces(letters)
    requires forall k :: 0 <= k < |gap| ==> IsSpace(gap[k])
    ensures StripSpaces(digits + gap + letters) == digits + letters
  {
    calc {
      StripSpaces(digits + gap + letters);
      { StripSpacesAppend(digits + gap, letters); }
      StripSpaces(digits + gap) + StripSpaces(letters);
      { StripSpacesAppend(digits, gap); }
      StripSpaces(digits) + StripSpaces(gap) + StripSpaces(letters);
      { StripAllSpaces(gap); }
      digits + [] + letters;
      digits + letters;
    }
  }

  /** A piece made of digits, then whitespace, then letters normalises to a
      canonical code. */
  lemma {:induction false} DigitsGapLettersIsCanonical(s: string, i: nat, d: nat, w: nat, j: nat)
    requires i < d <= w <= j <= |s|
    requires forall k :: i <= k < d ==> IsDigit(s[k])
    requires forall k :: d <= k < w ==> IsSpace(s[k])
    requires forall k :: w <= k < j ==> IsLetter(s[k])
    ensures IsCanonical(Upper(StripSpaces(s[i..j])))
  {
    var digits := s[i..d];
    var gap := s[d..w];
    var letters := s[w..j];
    assert forall k :: 0 <= k < |digits| ==> digits[k] == s[i + k];
    assert forall k :: 0 <= k < |gap| ==> gap[k] == s[d + k];
    assert forall k :: 0 <= k < |letters| ==> letters[k] == s[w + k];
    assert s[i..j] == digits + gap + letters by {
      assert s[i..j] == s[i..d] + s[d..j];
      assert s[d..j] == s[d..w] + s[w..j];
    }
    StripGap(digits, gap, letters);
    UpperDigitsLetters(digits, letters);
  }

  /** The matched piece of a trimmed line normalises to a canonical code. */
  lemma {:induction false} MatchedPieceIsCanonical(s: string, m: Match)
    requires MatchSpan(s) == Some(m)
    ensures IsCanonical(Upper(StripSpaces(s[m.start..m.end])))
  {
    if HasLetters(s, m) {
      DigitsGapLettersIsCanonical(s, m.start, m.digitsEnd, m.gapEnd, m.end);
    } else {
      DigitsGapLettersIsCanonical(s, m.start, m.digitsEnd, m.digitsEnd, m.digitsEnd);
    }
  }

  /** Every result of `NormalizeLine` has the canonical shape. */
  lemma NormalizeIsCanonical(raw: string)
    ensures IsCanonical(NormalizeLine(raw))
  {
    var s := Trim(raw);
    var code := NormalizeLine(raw);
    match MatchSpan(s)
    case None =>
      var t := StripSpaces(s);
      assert code == Upper(t);
      assert NoDigits(code) by {
        forall k | 0 <= k < |code| ensures !IsDigit(code[k]) {
          assert code[k] == UpperChar(t[k]);
        }
      }
    case Some(m) =>
      MatchedPieceIsCanonical(s, m);
  }

  /** Where the match lies in a canonical code that holds a digit: its
      digit run starts the code and its letters, if any, end it. */
  lemma CanonicalMatch(code: string, m: Match)
    requires IsCanonical(code) && MatchSpan(code) == Some(m)
    ensures var n := RunEnd(code, 0, IsDigit);
            m.start == 0 && m.digitsEnd == n
            && (if n < |code| then HasLetters(code, m) && m.gapEnd == n && m.end == |code| else true)
  {
    var n := RunEnd(code, 0, IsDigit);
    assert m.start == 0;
    assert m.digitsEnd == n;
    if n < |code| {
      assert !IsSpace(code[n]);
      assert m.gapEnd == n;
      assert IsLetter(code[n]);
    }
  }

  /** The extracted pieces of a canonical code put it back together. */
  lemma CanonicalPieces(code: string)
    requires IsCanonical(code)
    ensures match MatchSpan(code)
            case None => Upper(StripSpaces(code)) == code
            case Some(m) =>
              code[m.start..m.digitsEnd] + (if HasLetters(code, m) then Upper(code[m.gapEnd..m.end]) else "") == code
  {
    match MatchSpan(code)
    case None =>
      assert Upper(code) == code;
    case Some(m) =>
      CanonicalMatch(code, m);
      var n := m.digitsEnd;
      if n < |code| {
        assert Upper(code[n..]) == code[n..];
        assert code == code[..n] + code[n..];
      } else {
        assert code[0..n] == code;
      }
  }

  /** A canonical code normalises to itself. */
  lemma CanonicalIsFixed(code: string)
    requires IsCanonical(code)
    ensures NormalizeLine(code) == code
  {
    assert Trim(code) == code;
    NormalizeExtracts(code);
    CanonicalPieces(code);
  }

  /** Text without any digit is kept whole: `normalizeLine` only removes its
      whitespace and upper-cases it (" line a " gives "LINEA"). */
  lemma NoDigitsNormalize(s: string)
    requires NoDigits(s)
    ensures NormalizeLine(s) == Upper(StripSpaces(s))
  {
    var t := Trim(s);
    var u := TrimStart(s);
    assert NoDigits(t) by {
      forall k | 0 <= k < |t|
        ensures !IsDigit(t[k])
      {
        assert t[k] == u[k] == s[|s| - |u| + k];
      }
    }
    NormalizeExtracts(s);
  }

  /** `normalizeLine` is idempotent: the source normalises lines that are
      already canonical (app.js:203, 481 after 1182 and 1034). */
  lemma NormalizeIdempotent(raw: string)
    ensures NormalizeLine(NormalizeLine(raw)) == NormalizeLine(raw)
  {
    NormalizeIsCanonical(raw);
    CanonicalIsFixed(NormalizeLine(raw));
  }

  /* ---------------- colours ---------------- */

  const BUS_COLOR: string := "#020224"
  const DEFAULT_RAIL_COLOR: string := "#111827"

  /** The codes the rail palette gives a colour of their own. */
  const RAIL_CODES: set<string> := {
    "7", "10", "11", "12", "13", "14", "17", "18", "19", "21", "25", "26",
    "27", "27S", "28", "28S", "29", "30", "31", "40", "41", "43", "43X", "48"
  }

  /** The colours the rail palette hands out, the default included. */
  const RAIL_COLOURS: set<string> := {
    "#878C85", "#0091D2", "#738BA4", "#E31F26", "#00B259", "#B76934",
    "#21B6BA", "#A86DAE", "#E08A32", "#ED66A5", DEFAULT_RAIL_COLOR
  }

  /** The colour chain of `colorForRailLine` on an already normalised code. */
  function RailColor(l: string): (c: string)
    ensures c in RAIL_COLOURS
  {
    if l == "7" then "#878C85"
    else if l == "10" || l == "11" then "#0091D2"
    else if l == "12" then "#738BA4"
    else if l == "13" || l == "14" then "#E31F26"
    else if l == "17" || l == "18" || l == "19" then "#00B259"
    else if l == "21" then "#B76934"
    else if l == "25" || l == "26" then "#21B6BA"
    else if l == "27" || l == "27S" || l == "28" || l == "28S" || l == "29" then "#A86DAE"
    else if l == "30" || l == "31" then "#E08A32"
    else if l == "40" || l == "41" || l == "43" || l == "43X" || l == "48" then "#ED66A5"
    else DEFAULT_RAIL_COLOR
  }

  /** `colorForRailLine`: a palette colour; the default one exactly when the
      line's canonical code has no colour of its own. */
  function ColorForRailLine(line: string): (c: string)
    ensures c in RAIL_COLOURS
    ensures c == DEFAULT_RAIL_COLOR <==> NormalizeLine(line) !in RAIL_CODES
  {
    RailColorIsDefaultIff(NormalizeLine(line));
    RailColor(NormalizeLine(line))
  }

  /** Every code of the palette gets a colour other than the default. */
  lemma RailColorInPalette(l: string)
    requires l in RAIL_CODES
    ensures RailColor(l) != DEFAULT_RAIL_COLOR
  {
  }

  /** Every code outside the palette gets the default colour. */
  lemma RailColorOutsidePalette(l: string)
    requires l !in RAIL_CODES
    ensures RailColor(l) == DEFAULT_RAIL_COLOR
  {
  }

  /** The colour chain hands out palette colours, the default exactly off the palette. */
  lemma RailColorIsDefaultIff(l: string)
    ensures RailColor(l) in RAIL_COLOURS
    ensures RailColor(l) == DEFAULT_RAIL_COLOR <==> l !in RAIL_CODES
  {
    if l in RAIL_CODES {
      RailColorInPalette(l);
    } else {
      RailColorOutsidePalette(l);
    }
  }

  /** Spelling a line differently ("43x", " 43 X") never changes its colour. */
  lemma ColorIgnoresSpelling(line: string)
    ensures ColorForRailLine(NormalizeLine(line)) == ColorForRailLine(line)
  {
    NormalizeIdempotent(line);
  }

  lemma BusColourIsNotRail()
    ensures BUS_COLOR !in RAIL_COLOURS
  {
  }

  /** The label background (app.js:353): the bus colour for buses, the rail
      palette otherwise; the two never coincide. */
  function LabelBackground(vtype: Option<int>, line: string): (c: string)
    ensures c == BUS_COLOR <==> vtype == Some(BUS_TYPE)
    ensures vtype != Some(BUS_TYPE) ==> c == ColorForRailLine(line)
    // A rail label is a palette colour, the default one exactly for unlisted lines.
    ensures vtype != Some(BUS_TYPE) ==>
              c in RAIL_COLOURS && (c == DEFAULT_RAIL_COLOR <==> NormalizeLine(line) !in RAIL_CODES)
  {
    BusColourIsNotRail();
    if vtype == Some(BUS_TYPE) then BUS_COLOR else ColorForRailLine(line)
  }

  /** Two spellings of the same line get the same label background. */
  lemma LabelBackgroundIgnoresSpelling(vtype: Option<int>, a: string, b: string)
    requires NormalizeLine(a) == NormalizeLine(b)
    ensures LabelBackground(vtype, a) == LabelBackground(vtype, b)
  {
  }

  /* ---------------- darkenHex ---------------- */

  /** `Math.round`: the nearest integer, halves rounded up. The bounds leave
      exactly one integer, and at a tie it is the upper one. */
  function RoundHalfUp(x: real): (n: int)
    ensures x - 0.5 < n as real <= x + 0.5
  {
    (x + 0.5).Floor
  }

  /** `clamp255`: the nearest value in `[0, 255]`. */
  function Clamp255(v: int): (r: nat)
    ensures r <= 255
    ensures 0 <= v <= 255 ==> r == v
    ensures v < 0 ==> r == 0
    ensures v > 255 ==> r == 255
  {
    if v < 0 then 0 else if v > 255 then 255 else v
  }

  /** Halving rounds halves up: `Math.round(v * 0.5)` is `(v + 1) / 2`. */
  lemma HalfRoundsUp(v: nat)
    ensures RoundHalfUp(v as real * 0.5) == (v + 1) / 2
  {
    var q := (v + 1) / 2;
    assert q as real <= v as real * 0.5 + 0.5 < q as real + 1.0;
  }

  /** One channel of `darkenHex` with the default amount 0.5: the channel
      halved, rounding halves up. */
  function DarkenChannel(v: nat): (r: nat)
    requires v < 256
    ensures r == (v + 1) / 2 && r <= v && r < 256
  {
    HalfRoundsUp(v);
    Clamp255(RoundHalfUp(v as real * (1.0 - 0.5)))
  }

  /** The three channels of a colour written `#rrggbb` (either case):
      `parseInt(hex.slice(1, 3), 16)` and its two neighbours. */
  function Channels(hex: string): (r: Option<(nat, nat, nat)>)
    ensures r.Some? <==> |hex| >= 7 && forall k :: 1 <= k < 7 ==> HexDigitValue(hex[k]).Some?
    ensures r.Some? ==> r.value.0 < 256 && r.value.1 < 256 && r.value.2 < 256
    // Each channel is the byte its digit pair spells, in either case.
    ensures r.Some? ==> && HexByte(r.value.0) == Lower(hex[1..3])
                        && HexByte(r.value.1) == Lower(hex[3..5])
                        && HexByte(r.value.2) == Lower(hex[5..7])
  {
    if |hex| < 7 then None
    else match (ParseHexByte(hex[1..3]), ParseHexByte(hex[3..5]), ParseHexByte(hex[5..7]))
      case (Some(r), Some(g), Some(b)) =>
        ParseHexByteWritesBack(hex[1..3]);
        ParseHexByteWritesBack(hex[3..5]);
        ParseHexByteWritesBack(hex[5..7]);
        Some((r, g, b))
      case _ => None
  }

  /** `darkenHex(hex, 0.5)`: every channel halved, rounding halves up, written
      back as lower-case `#rrggbb`; `None` where the source's `parseInt` would
      not see two hexadecimal digits per channel. */
  function DarkenHex(hex: string): (r: Option<string>)
    ensures r.Some? <==> Channels(hex).Some?
    ensures r.Some? ==> |r.value| == 7 && r.value[0] == '#'
    ensures r.Some? ==> (
      && Channels(r.value).Some?
      && Channels(r.value).value.0 == (Channels(hex).value.0 + 1) / 2
      && Channels(r.value).value.1 == (Channels(hex).value.1 + 1) / 2
      && Channels(r.value).value.2 == (Channels(hex).value.2 + 1) / 2)
    ensures r.Some? ==> Lower(r.value) == r.value
  {
    match Channels(hex)
    case None => None
    case Some((red, green, blue)) =>
      HalfRoundsUp(red);
      HalfRoundsUp(green);
      HalfRoundsUp(blue);
      var s := "#" + HexByte(DarkenChannel(red)) + HexByte(DarkenChannel(green)) + HexByte(DarkenChannel(blue));
      assert s[1..3] == HexByte(DarkenChannel(red));
      assert s[3..5] == HexByte(DarkenChannel(green));
      assert s[5..7] == HexByte(DarkenChannel(blue));
      assert forall k :: 0 <= k < |s| ==> !IsUpper(s[k]);
      LowerKeepsNonUpper(s);
      Some(s)
  }

  /** Darkening never brightens a channel, and keeps a non-black channel non-black. */
  lemma DarkenIsDarker(hex: string)
    requires Channels(hex).Some?
    ensures var c := Channels(hex).value;
            var d := Channels(DarkenHex(hex).value).value;
            d.0 <= c.0 && d.1 <= c.1 && d.2 <= c.2
            && (c.0 > 0 <==> d.0 > 0) && (c.1 > 0 <==> d.1 > 0) && (c.2 > 0 <==> d.2 > 0)
  {
  }

  /** Written `#rrggbb` with six hexadecimal digits. */
  predicate IsHexColor(c: string) {
    |c| == 7 && c[0] == '#' && forall k :: 1 <= k < 7 ==> HexDigitValue(c[k]).Some?
  }

  lemma HexColorHasChannels(c: string)
    requires IsHexColor(c)
    ensures Channels(c).Some?
  {
    assert c[1..3][0] == c[1] && c[1..3][1] == c[2];
    assert c[3..5][0] == c[3] && c[3..5][1] == c[4];
    assert c[5..7][0] == c[5] && c[5..7][1] == c[6];
  }

  /** Every palette colour is written `#rrggbb`. */
  lemma RailColoursAreHex(c: string)
    requires c in RAIL_COLOURS
    ensures IsHexColor(c)
  {
    if c in {"#878C85", "#0091D2", "#738BA4", "#E31F26", "#00B259", "#B76934"} {
      HexColoursLow(c);
    } else {
      HexColoursHigh(c);
    }
  }

  lemma HexColoursLow(c: string)
    requires c in {"#878C85", "#0091D2", "#738BA4", "#E31F26", "#00B259", "#B76934"}
    ensures IsHexColor(c)
  {
  }

  lemma HexColoursHigh(c: string)
    requires c in {"#21B6BA", "#A86DAE", "#E08A32", "#ED66A5", DEFAULT_RAIL_COLOR}
    ensures IsHexColor(c)
  {
  }

  /** Every colour the rail palette hands out can be darkened (app.js:278-279). */
  lemma PaletteColoursDarken(line: string)
    ensures DarkenHex(ColorForRailLine(line)).Some?
  {
    var c := ColorForRailLine(line);
    RailColoursAreHex(c);
    HexColorHasChannels(c);
  }

  /* ---------------- label text ---------------- */

  const SPEED_PREFIX: string := " \U{2022} "
  const SPEED_SUFFIX: string := " km/h"
  const ARROW: string := " \U{2192} "

  /** `fmtSpeed`: empty for a missing or negative speed, otherwise the rounded
      speed in km/h behind a bullet. */
  function FmtSpeed(speedKmh: Option<int>): (r: string)
    ensures r == "" <==> speedKmh.None? || speedKmh.value < 0
  {
    match speedKmh
    case None => ""
    case Some(n) => if n < 0 then "" else SPEED_PREFIX + Decimal(n) + SPEED_SUFFIX
  }

  /** The number inside a speed suffix reads back as the speed. */
  lemma FmtSpeedReadsBack(n: nat)
    ensures var r := FmtSpeed(Some(n));
            var digits := r[|SPEED_PREFIX|..|r| - |SPEED_SUFFIX|];
            && |r| > |SPEED_PREFIX| + |SPEED_SUFFIX|
            && r[..|SPEED_PREFIX|] == SPEED_PREFIX
            && r[|r| - |SPEED_SUFFIX|..] == SPEED_SUFFIX
            && (forall k :: 0 <= k < |digits| ==> IsDigit(digits[k]))
            && DecimalValue(digits) == n
  {
    var r := FmtSpeed(Some(n));
    assert r[|SPEED_PREFIX|..|r| - |SPEED_SUFFIX|] == Decimal(n);
    DecimalRoundTrip(n);
  }

  /** `buildLabelText`: the line, followed by an arrow and the headsign when
      there is a non-empty headsign. */
  function BuildLabelText(line: string, headsign: Option<string>): (r: string)
    ensures |r| >= |line| && r[..|line|] == line
    ensures r == line <==> headsign.None? || headsign.value == ""
    ensures headsign.Some? && headsign.value != "" ==> r[|line|..] == ARROW + headsign.value
  {
    match headsign
    case Some(h) => if h != "" then line + ARROW + h else line
    case None => line
  }

  /** The text a hover or pinned label shows (app.js:354): the label text,
      then the speed suffix, which is there exactly when the speed is usable. */
  function LabelText(line: string, headsign: Option<string>, speedKmh: Option<int>): (r: string)
    ensures var b := BuildLabelText(line, headsign);
            |r| >= |b| && r[..|b|] == b
    ensures r == BuildLabelText(line, headsign) <==> speedKmh.None? || speedKmh.value < 0
  {
    BuildLabelText(line, headsign) + FmtSpeed(speedKmh)
  }

  /** Behind the label text of a label with a usable speed come the bullet,
      the speed's digits and " km/h", and the digits read back as the speed. */
  lemma LabelTextReadsBack(line: string, headsign: Option<string>, n: nat)
    ensures var r := LabelText(line, headsign, Some(n));
            |BuildLabelText(line, headsign)| + |SPEED_PREFIX| < |r| - |SPEED_SUFFIX|
    ensures var r := LabelText(line, headsign, Some(n));
            var b := |BuildLabelText(line, headsign)|;
            var digits := r[b + |SPEED_PREFIX|..|r| - |SPEED_SUFFIX|];
            && r[b..b + |SPEED_PREFIX|] == SPEED_PREFIX
            && r[|r| - |SPEED_SUFFIX|..] == SPEED_SUFFIX
            && (forall k :: 0 <= k < |digits| ==> IsDigit(digits[k]))
            && DecimalValue(digits) == n
  {
    var b := BuildLabelText(line, headsign);
    var f := FmtSpeed(Some(n));
    var r := b + f;
    assert LabelText(line, headsign, Some(n)) == r;
    FmtSpeedReadsBack(n);
    assert r[|b| + |SPEED_PREFIX|..|r| - |SPEED_SUFFIX|] == f[|SPEED_PREFIX|..|f| - |SPEED_SUFFIX|];
    assert r[|b|..|b| + |SPEED_PREFIX|] == f[..|SPEED_PREFIX|];
    assert r[|r| - |SPEED_SUFFIX|..] == f[|f| - |SPEED_SUFFIX|..];
  }
}

=== FILE: reconcile.dfy ===
/** The reconciliation tick: what `refreshLive` does with a feed snapshot once
    it has been fetched (app.js:1166-1196), together with `enrich`
    (app.js:374-385), `upsertVehicle` (app.js:1033-1152),
    `removeVehicleCompletely` (app.js:986-1006) and `removeAllNow`
    (app.js:1008-1028).

    The source keeps four maps keyed by vehicle id (`markers`, `lastPos`,
    `lastBearing`, `bearingEstablished`). Every upsert writes `lastPos` and
    `markers` (app.js:1070, 1107-1114, 1121-1123); the two bearing maps gain an entry
    only when a bearing is established (app.js:1057-1060); all four lose an
    entry together (app.js:993-997, 1012-1016). So here they are one map from
    id to `Track`, and a bearing map without an entry for a tracked id is a
    `None` or `false` field of the track's `Memory`. */
module Reconcile {

  import opened Wrappers
  import opened Geo
  import opened Lines
  import opened Selection
  import opened Heading
  import opened Animation
  import Labels

  type Id = Labels.Id

  /** One record of the feed, every field optional as JSON delivers it. */
  datatype RawRecord = RawRecord(
    id: Option<Id>,
    lat: Option<real>,
    lon: Option<real>,
    bearing: Option<real>,
    speedKmh: Option<int>,
    tripId: Option<string>)

  /** An entry of the trip table `TRIP_TO_LINE`. */
  datatype TripInfo = TripInfo(line: Option<string>, headsign: Option<string>, vtype: Option<int>)

  /** A record that survived the checks and was enriched from the trip table. */
  datatype Vehicle = Vehicle(
    id: Id,
    pos: Pos,
    bearing: Option<real>,
    speedKmh: Option<int>,
    line: string,
    headsign: Option<string>,
    vtype: Option<int>)

  /** `enrich(v)`: the trip's table entry when the record names a trip the
      table knows and that entry carries a line. */
  function Enrich(tripId: Option<string>, table: map<string, TripInfo>): (info: Option<TripInfo>)
    ensures info.Some? <==> Labels.Truthy(tripId) && tripId.value in table
                            && Labels.Truthy(table[tripId.value].line)
    ensures info.Some? ==> info.value == table[tripId.value]
  {
    if !Labels.Truthy(tripId) then None
    else if tripId.value !in table then None
    else if !Labels.Truthy(table[tripId.value].line) then None
    else Some(table[tripId.value])
  }

  /** The admission checks at the head of the loop (app.js:1177-1182): a
      record needs an id, both coordinates and an enrichable trip; its line
      is then normalised. */
  function Admit(r: RawRecord, table: map<string, TripInfo>): (v: Option<Vehicle>)
    ensures v.Some? <==> Labels.Truthy(r.id) && r.lat.Some? && r.lon.Some?
                         && Enrich(r.tripId, table).Some?
    ensures v.Some? ==> v.value.id == r.id.value && v.value.pos == Pos(r.lat.value, r.lon.value)
                        && v.value.bearing == r.bearing && v.value.speedKmh == r.speedKmh
    ensures v.Some? ==> var info := table[r.tripId.value];
                        v.value.line == NormalizeLine(info.line.value)
                        && v.value.headsign == info.headsign && v.value.vtype == info.vtype
    ensures v.Some? ==> IsCanonical(v.value.line)
  {
    if !Labels.Truthy(r.id) || r.lat.None? || r.lon.None? then None
    else
      match Enrich(r.tripId, table)
      case None => None
      case Some(info) =>
        NormalizeIsCanonical(info.line.value);
        Some(Vehicle(r.id.value, Pos(r.lat.value, r.lon.value), r.bearing, r.speedKmh,
                     NormalizeLine(info.line.value), info.headsign, info.vtype))
  }

  /** Everything the page holds about one tracked vehicle: the bearing maps,
      the last record, the bearing the arrow is drawn with, whether the
      last update popped the arrow, and the drawn marker. */
  datatype Track = Track(memory: Memory, lastV: Vehicle, arrow: Option<real>, pop: bool, marker: Marker)

  /** What holds of every tracked vehicle between events. */
  predicate TrackInv(id: Id, t: Track) {
    && t.lastV.id == id
    && t.memory.lastPos == Some(t.lastV.pos)
    && Coherent(t.memory)
    && t.arrow == t.memory.lastBearing
    && (t.pop ==> t.arrow.Some?)
    && match t.marker.anim
       case None => t.marker.pos == t.lastV.pos
       case Some(a) => a.to == t.lastV.pos && ANIM_MIN_MS <= a.durationMs <= ANIM_MAX_MS
  }

  /** What the tick consults outside the session: the trip table, the
      heading of two points, the projected pixel distance of two points, and
      the clock reading at which new glides start. */
  datatype Env = Env(
    table: map<string, TripInfo>,
    heading: (Pos, Pos) -> Degrees,
    pixelDist: (Pos, Pos) -> real,
    now: real)

  /** `upsertVehicle` normalises a line the loop has already normalised;
      that second pass changes nothing. */
  lemma CanonicalStaysPut(line: string)
    ensures IsCanonical(line) ==> NormalizeLine(line) == line
  {
    if IsCanonical(line) {
      CanonicalIsFixed(line);
    }
  }

  /** `upsertVehicle(v)` for one vehicle, `prior` being its track if the
      marker map holds one. A new vehicle is placed where it is reported;
      a known one glides there from where its marker is drawn. */
  function UpsertTrack(env: Env, prior: Option<Track>, v: Vehicle): (t: Track)
    ensures t.lastV == v.(line := NormalizeLine(v.line))
    ensures IsCanonical(v.line) ==> t.lastV == v
    ensures IsCanonical(t.lastV.line)
    ensures prior.None? ==> t.marker == Marker(v.pos, None) && !t.pop
    ensures t.pop <==> prior.Some? && prior.value.arrow.None? && t.arrow.Some?
    ensures prior.Some? && t.marker.anim.Some? ==>
              t.marker.anim.value.from == prior.value.marker.pos
              && ANIM_MIN_MS <= t.marker.anim.value.durationMs <= ANIM_MAX_MS
  {
    CanonicalStaysPut(v.line);
    NormalizeIsCanonical(v.line);
    var w := v.(line := NormalizeLine(v.line));
    var m := if prior.Some? then prior.value.memory else FORGOTTEN;
    var i := Infer(m, w.bearing, w.pos, env.heading);
    match prior
    case None =>
      Track(i.memory, w, i.bearing, false, Marker(w.pos, None))
    case Some(p) =>
      var pop := Pop(p.arrow.Some?, i.bearing);
      var dur := ComputeAnimMs(env.pixelDist(p.marker.pos, w.pos));
      Track(i.memory, w, i.bearing, pop, AnimateTo(p.marker.pos, w.pos, dur, env.now))
  }

  /** An upsert keeps the track invariant, and a vehicle whose bearing was
      established keeps one. */
  lemma UpsertKeepsTrackInv(env: Env, prior: Option<Track>, v: Vehicle)
    ensures (prior.Some? ==> TrackInv(v.id, prior.value)) ==> TrackInv(v.id, UpsertTrack(env, prior, v))
    ensures prior.Some? && TrackInv(v.id, prior.value) && prior.value.memory.established ==>
              UpsertTrack(env, prior, v).memory.established && UpsertTrack(env, prior, v).arrow.Some?
  {
    if prior.None? || TrackInv(v.id, prior.value) {
      var w := v.(line := NormalizeLine(v.line));
      var m := if prior.Some? then prior.value.memory else FORGOTTEN;
      BearingIsRemembered(m, w.bearing, w.pos, env.heading);
    }
  }

  /** The page state the tick works on. `knownLines` collects every line
      seen in the feed (app.js:1183). */
  datatype Session = Session(
    selection: Selection,
    tracks: map<Id, Track>,
    labels: Labels.LabelState,
    knownLines: set<string>)

  /** Labels only ever refer to tracked vehicles. */
  predicate LabelsTracked(labels: Labels.LabelState, tracks: map<Id, Track>) {
    && (labels.hoverId.Some? ==> labels.hoverId.value in tracks)
    && (labels.pinnedId.Some? ==> labels.pinnedId.value in tracks)
  }

  /** The session invariant. */
  predicate SessionInv(s: Session) {
    && Labels.Inv(s.labels)
    && LabelsTracked(s.labels, s.tracks)
    && (forall id :: id in s.tracks ==> TrackInv(id, s.tracks[id]))
  }

  /** The page as it loads: nothing tracked, no label. */
  function Start(selection: Selection): (s: Session)
    ensures SessionInv(s)
    ensures s.tracks == map[] && s.selection == selection
  {
    Session(selection, map[], Labels.INITIAL, {})
  }

  /** `removeVehicleCompletely(id)`: the vehicle's marker, position, bearing
      and labels go; every other vehicle and label stays as it was. */
  function RemoveVehicle(s: Session, id: Id): (r: Session)
    ensures id !in s.tracks ==> r == s
    ensures r.tracks == s.tracks - {id}
    ensures r.selection == s.selection && r.knownLines == s.knownLines
    ensures Labels.Inv(s.labels) && LabelsTracked(s.labels, s.tracks) ==>
              r.labels.hoverId != Some(id) && r.labels.pinnedId != Some(id)
    ensures s.labels.hoverId != Some(id) && s.labels.pinnedId != Some(id) ==> r.labels == s.labels
    // Each label is touched only when it is this vehicle's (app.js:999-1005).
    ensures s.labels.pinnedId != Some(id) ==> Labels.Pinned(r.labels) == Labels.Pinned(s.labels)
    ensures s.labels.hoverId != Some(id) ==>
              r.labels.hoverId == s.labels.hoverId && r.labels.hoverLabel == s.labels.hoverLabel
    ensures SessionInv(s) ==> SessionInv(r)
  {
    if id !in s.tracks then s
    else s.(tracks := s.tracks - {id}, labels := Labels.Evict(s.labels, id))
  }

  /** `removeAllNow()`: nothing stays tracked and both labels go. */
  function RemoveAll(s: Session): (r: Session)
    ensures r.tracks == map[]
    ensures !r.labels.hoverLabel && !r.labels.pinnedLabel
    ensures Labels.Inv(s.labels) ==> r.labels.hoverId.None? && r.labels.pinnedId.None?
    ensures r.selection == s.selection && r.knownLines == s.knownLines
    ensures SessionInv(s) ==> SessionInv(r)
  {
    s.(tracks := map[], labels := Labels.ClearAll(s.labels))
  }

  /** The admission checks applied to every record of the feed: `None`
      for each record the loop skips. */
  function Admitted(feed: seq<RawRecord>, table: map<string, TripInfo>): (vs: seq<Option<Vehicle>>)
    ensures |vs| == |feed|
    ensures forall k :: 0 <= k < |feed| ==> vs[k] == Admit(feed[k], table)
  {
    seq(|feed|, k requires 0 <= k < |feed| => Admit(feed[k], table))
  }

  /** The loop's state: the session and the `seen` set. */
  datatype Pass = Pass(session: Session, seen: set<Id>)

  /** One iteration of the loop over the feed (app.js:1176-1190), once the
      record has been through the admission checks: a skipped record changes
      nothing; an admitted vehicle that fails the filter is removed; one that
      passes is marked seen and upserted. */
  function Step(env: Env, p: Pass, o: Option<Vehicle>): (q: Pass)
    ensures q.session.selection == p.session.selection
    ensures p.seen <= q.seen
    ensures o.None? ==> q == p
  {
    match o
    case None => p
    case Some(v) =>
      var s := p.session.(knownLines := p.session.knownLines + {v.line});
      if !PassesFilter(s.selection, v.line, v.vtype) then
        Pass(RemoveVehicle(s, v.id), p.seen)
      else
        var prior := if v.id in s.tracks then Some(s.tracks[v.id]) else None;
        var t := UpsertTrack(env, prior, v);
        Pass(s.(tracks := s.tracks[v.id := t]), p.seen + {v.id})
  }

  /** An iteration whose vehicle fails the filter removes exactly it. */
  lemma StepRemoves(env: Env, p: Pass, v: Vehicle)
    requires !PassesFilter(p.session.selection, v.line, v.vtype)
    ensures Step(env, p, Some(v)).session.tracks == p.session.tracks - {v.id}
  {
  }

  /** An iteration whose vehicle passes the filter puts its upserted track. */
  lemma StepPuts(env: Env, p: Pass, v: Vehicle)
    requires PassesFilter(p.session.selection, v.line, v.vtype)
    ensures var prior := if v.id in p.session.tracks then Some(p.session.tracks[v.id]) else None;
            Step(env, p, Some(v)).session.tracks == p.session.tracks[v.id := UpsertTrack(env, prior, v)]
  {
  }

  /** What one iteration does to one vehicle: a record carrying it decides
      whether it stays tracked; any other record leaves its track alone. */
  lemma StepTracks(env: Env, p: Pass, o: Option<Vehicle>, id: Id)
    ensures var q := Step(env, p, o);
            id in q.session.tracks <==>
              if Carries(o, id) then PassesAt(p.session.selection, o, id) else id in p.session.tracks
    ensures var q := Step(env, p, o);
            !Carries(o, id) && id in p.session.tracks ==> q.session.tracks[id] == p.session.tracks[id]
  {
    if o.Some? {
      var v := o.value;
      if PassesFilter(p.session.selection, v.line, v.vtype) {
        StepPuts(env, p, v);
      } else {
        StepRemoves(env, p, v);
      }
    }
  }

  /** What one iteration adds to the seen set: the vehicle it upserts. */
  lemma StepSeen(env: Env, p: Pass, o: Option<Vehicle>, id: Id)
    ensures id in Step(env, p, o).seen <==> id in p.seen || PassesAt(p.session.selection, o, id)
  {
  }

  /** Replacing or adding one track that keeps the track invariant keeps
      the session invariant. */
  lemma PutKeepsInv(s: Session, id: Id, t: Track)
    requires SessionInv(s) && TrackInv(id, t)
    ensures SessionInv(s.(tracks := s.tracks[id := t]))
  {
    var tracks := s.tracks[id := t];
    forall x | x in tracks
      ensures TrackInv(x, tracks[x])
    {
      if x != id {
        assert tracks[x] == s.tracks[x];
      }
    }
  }

  /** One iteration keeps the session invariant. */
  lemma StepKeepsInv(env: Env, p: Pass, o: Option<Vehicle>)
    requires SessionInv(p.session)
    ensures SessionInv(Step(env, p, o).session)
  {
    match o
    case None =>
    case Some(v) =>
      var s := p.session.(knownLines := p.session.knownLines + {v.line});
      assert SessionInv(s);
      if PassesFilter(s.selection, v.line, v.vtype) {
        var prior := if v.id in s.tracks then Some(s.tracks[v.id]) else None;
        UpsertKeepsTrackInv(env, prior, v);
        PutKeepsInv(s, v.id, UpsertTrack(env, prior, v));
      }
  }

  /** The loop over the whole (admitted) feed, in feed order. */
  function Process(env: Env, s: Session, vs: seq<Option<Vehicle>>): (p: Pass)
    ensures p.session.selection == s.selection
    decreases |vs|
  {
    if |vs| == 0 then Pass(s, {})
    else Step(env, Process(env, s, vs[..|vs| - 1]), vs[|vs| - 1])
  }

  /** The loop keeps the session invariant. */
  lemma {:induction false} ProcessKeepsInv(env: Env, s: Session, vs: seq<Option<Vehicle>>)
    requires SessionInv(s)
    ensures SessionInv(Process(env, s, vs).session)
    decreases |vs|
  {
    if |vs| > 0 {
      var n := |vs| - 1;
      ProcessKeepsInv(env, s, vs[..n]);
      StepKeepsInv(env, Process(env, s, vs[..n]), vs[n]);
    }
  }

  /** The sweep (app.js:1194-1196): every tracked vehicle not seen this tick
      is removed, labels included. */
  function Sweep(s: Session, seen: set<Id>): (r: Session)
    ensures r.tracks.Keys == s.tracks.Keys * seen
    ensures forall id :: id in r.tracks ==> r.tracks[id] == s.tracks[id]
    ensures r.selection == s.selection && r.knownLines == s.knownLines
    // The labels of vehicles seen this tick stay where they are.
    ensures s.labels.pinnedId.Some? && s.labels.pinnedId.value in seen ==> r.labels.pinnedId == s.labels.pinnedId
    ensures s.labels.hoverId.Some? && s.labels.hoverId.value in seen ==> r.labels.hoverId == s.labels.hoverId
    ensures SessionInv(s) ==> SessionInv(r)
  {
    var r := s.(tracks := map id | id in s.tracks && id in seen :: s.tracks[id],
                labels := Labels.EvictSet(s.labels, s.tracks.Keys - seen));
    assert r.tracks.Keys == s.tracks.Keys * seen;
    r
  }

  /** `refreshLive` after the fetch: a "show none" selection clears
      everything; otherwise the feed is processed and the unseen swept. */
  function Tick(env: Env, s: Session, feed: seq<RawRecord>): (r: Session)
    ensures IsShowNone(s.selection) ==> r == RemoveAll(s)
    ensures r.selection == s.selection
  {
    if IsShowNone(s.selection) then RemoveAll(s)
    else
      var p := Process(env, s, Admitted(feed, env.table));
      Sweep(p.session, p.seen)
  }

  /** A tick keeps the session invariant: labels refer only to tracked
      vehicles, hover and pin stay distinct, every track stays coherent. */
  lemma TickKeepsInv(env: Env, s: Session, feed: seq<RawRecord>)
    requires SessionInv(s)
    ensures SessionInv(Tick(env, s, feed))
  {
    if !IsShowNone(s.selection) {
      ProcessKeepsInv(env, s, Admitted(feed, env.table));
    }
  }

  /** A "show none" tick leaves nothing tracked and no label. */
  lemma TickShowNone(env: Env, s: Session, feed: seq<RawRecord>)
    requires SessionInv(s) && IsShowNone(s.selection)
    ensures var r := Tick(env, s, feed);
            r.tracks == map[] && r.labels.hoverId.None? && r.labels.pinnedId.None?
            && !r.labels.hoverLabel && !r.labels.pinnedLabel
  {
  }

  /** The admitted record `o` carries vehicle `id`. */
  predicate Carries(o: Option<Vehicle>, id: Id) {
    o.Some? && o.value.id == id
  }

  /** The admitted record `o` carries vehicle `id` and it passes the filter. */
  predicate PassesAt(sel: Selection, o: Option<Vehicle>, id: Id) {
    Carries(o, id) && PassesFilter(sel, o.value.line, o.value.vtype)
  }

  /** The admitted record `o` carries vehicle `id` and it fails the filter. */
  predicate FailsAt(sel: Selection, o: Option<Vehicle>, id: Id) {
    Carries(o, id) && !PassesFilter(sel, o.value.line, o.value.vtype)
  }

  /** The reference definition of the outcome for one vehicle: the filter
      verdict on the LAST admitted record that carries it, or `None` when
      no record does. */
  function LastVerdict(sel: Selection, vs: seq<Option<Vehicle>>, id: Id): Option<bool>
    decreases |vs|
  {
    if |vs| == 0 then None
    else if Carries(vs[|vs| - 1], id) then Some(PassesAt(sel, vs[|vs| - 1], id))
    else LastVerdict(sel, vs[..|vs| - 1], id)
  }

  /** The verdict is witnessed by a record of the feed. */
  lemma {:induction false} LastVerdictWitness(sel: Selection, vs: seq<Option<Vehicle>>, id: Id)
    ensures LastVerdict(sel, vs, id) == Some(true) ==>
              exists k :: 0 <= k < |vs| && PassesAt(sel, vs[k], id)
    ensures LastVerdict(sel, vs, id) == Some(false) ==>
              exists k :: 0 <= k < |vs| && FailsAt(sel, vs[k], id)
    ensures LastVerdict(sel, vs, id) == None ==>
              forall k :: 0 <= k < |vs| ==> !Carries(vs[k], id)
    decreases |vs|
  {
    if |vs| > 0 {
      var n := |vs| - 1;
      var init := vs[..n];
      if !Carries(vs[n], id) {
        LastVerdictWitness(sel, init, id);
        assert forall k :: 0 <= k < n ==> vs[k] == init[k];
      }
    }
  }

  /** After the loop, a vehicle is tracked exactly when the last record
      carrying it passed the filter, or, when no record carried it, when it
      was tracked before. */
  lemma {:induction false} ProcessTracks(env: Env, s: Session, vs: seq<Option<Vehicle>>, id: Id)
    ensures var v := LastVerdict(s.selection, vs, id);
            id in Process(env, s, vs).session.tracks <==> v == Some(true) || (v.None? && id in s.tracks)
    decreases |vs|
  {
    if |vs| > 0 {
      var n := |vs| - 1;
      ProcessTracks(env, s, vs[..n], id);
      StepTracks(env, Process(env, s, vs[..n]), vs[n], id);
    }
  }

  /** After the loop, the seen set holds every vehicle whose last verdict was
      a pass, and only vehicles that some record carried. */
  lemma {:induction false} ProcessSeen(env: Env, s: Session, vs: seq<Option<Vehicle>>, id: Id)
    ensures var v := LastVerdict(s.selection, vs, id);
            var seen := Process(env, s, vs).seen;
            (v == Some(true) ==> id in seen) && (id in seen ==> v.Some?)
    decreases |vs|
  {
    if |vs| > 0 {
      var n := |vs| - 1;
      ProcessSeen(env, s, vs[..n], id);
      StepSeen(env, Process(env, s, vs[..n]), vs[n], id);
    }
  }

  /** The main property of the tick: unless the selection is "show none", a
      vehicle is tracked afterwards exactly when the last admitted record of
      the feed that carries it passes the filter, whatever was tracked
      before. */
  lemma TickTracks(env: Env, s: Session, feed: seq<RawRecord>, id: Id)
    requires !IsShowNone(s.selection)
    ensures id in Tick(env, s, feed).tracks <==>
              LastVerdict(s.selection, Admitted(feed, env.table), id) == Some(true)
  {
    var vs := Admitted(feed, env.table);
    ProcessTracks(env, s, vs, id);
    ProcessSeen(env, s, vs, id);
  }

  /** A pass verdict is witnessed by a passing record, and a feed with a
      passing record and no failing one for a vehicle gives a pass verdict. */
  lemma VerdictPasses(sel: Selection, vs: seq<Option<Vehicle>>, id: Id)
    ensures LastVerdict(sel, vs, id) == Some(true) ==>
              exists k :: 0 <= k < |vs| && PassesAt(sel, vs[k], id)
    ensures (exists k :: 0 <= k < |vs| && PassesAt(sel, vs[k], id))
            && (forall k :: 0 <= k < |vs| ==> !FailsAt(sel, vs[k], id))
            ==> LastVerdict(sel, vs, id) == Some(true)
  {
    LastVerdictWitness(sel, vs, id);
    var verdict := LastVerdict(sel, vs, id);
    if k :| 0 <= k < |vs| && PassesAt(sel, vs[k], id) {
      assert Carries(vs[k], id);
      assert verdict.Some?;
      if forall j :: 0 <= j < |vs| ==> !FailsAt(sel, vs[j], id) {
        assert verdict != Some(false);
        assert verdict.value;
      }
    }
  }

  /** Every vehicle tracked after a tick passed the filter on some record of
      this tick; and a vehicle that some record carries, and that no record
      fails, is tracked. */
  lemma TickTracksPassing(env: Env, s: Session, feed: seq<RawRecord>, id: Id)
    requires !IsShowNone(s.selection)
    ensures var vs := Admitted(feed, env.table);
            id in Tick(env, s, feed).tracks ==>
              exists k :: 0 <= k < |vs| && PassesAt(s.selection, vs[k], id)
    ensures var vs := Admitted(feed, env.table);
            (exists k :: 0 <= k < |vs| && PassesAt(s.selection, vs[k], id))
            && (forall k :: 0 <= k < |vs| ==> !FailsAt(s.selection, vs[k], id))
            ==> id in Tick(env, s, feed).tracks
  {
    TickTracks(env, s, feed, id);
    VerdictPasses(s.selection, Admitted(feed, env.table), id);
  }

  /** No two admitted records carry the same vehicle. */
  predicate UniqueIds(vs: seq<Option<Vehicle>>) {
    forall j, k :: 0 <= j < |vs| && 0 <= k < |vs| && vs[j].Some? && vs[k].Some?
                   && vs[j].value.id == vs[k].value.id
                   ==> j == k
  }

  /** With unique ids the tracked set is exactly the set of admitted vehicles
      that pass the filter. */
  lemma TickUniqueIds(env: Env, s: Session, feed: seq<RawRecord>, id: Id)
    requires !IsShowNone(s.selection) && UniqueIds(Admitted(feed, env.table))
    ensures var vs := Admitted(feed, env.table);
            id in Tick(env, s, feed).tracks <==>
              exists k :: 0 <= k < |vs| && PassesAt(s.selection, vs[k], id)
  {
    var vs := Admitted(feed, env.table);
    TickTracksPassing(env, s, feed, id);
    if k :| 0 <= k < |vs| && PassesAt(s.selection, vs[k], id) {
      forall j | 0 <= j < |vs|
        ensures !FailsAt(s.selection, vs[j], id)
      {
        if Carries(vs[j], id) {
          assert j == k;
        }
      }
    }
  }

  /** The tracked set after a tick does not depend on what was tracked
      before: the snapshot replaces the previous one. */
  lemma TickForgetsHistory(env: Env, s1: Session, s2: Session, feed: seq<RawRecord>)
    requires s1.selection == s2.selection
    ensures Tick(env, s1, feed).tracks.Keys == Tick(env, s2, feed).tracks.Keys
  {
    if !IsShowNone(s1.selection) {
      forall id | true
        ensures id in Tick(env, s1, feed).tracks <==> id in Tick(env, s2, feed).tracks
      {
        TickTracks(env, s1, feed, id);
        TickTracks(env, s2, feed, id);
      }
    }
  }

  /** One iteration keeps a tracked vehicle and its bearing unless its
      record fails the filter. */
  lemma StepKeepsHeading(env: Env, p: Pass, o: Option<Vehicle>, id: Id)
    requires SessionInv(p.session) && id in p.session.tracks && p.session.tracks[id].memory.established
    requires !FailsAt(p.session.selection, o, id)
    ensures var tracks := Step(env, p, o).session.tracks;
            id in tracks && tracks[id].memory.established && tracks[id].arrow.Some?
  {
    StepTracks(env, p, o, id);
    if Carries(o, id) {
      var prior := Some(p.session.tracks[id]);
      assert TrackInv(id, prior.value);
      UpsertKeepsTrackInv(env, prior, o.value);
    }
  }

  /** A bearing once established survives the loop for as long as no record
      of the vehicle fails the filter: it is lost only with the vehicle. */
  lemma {:induction false} ProcessKeepsHeading(env: Env, s: Session, vs: seq<Option<Vehicle>>, id: Id)
    requires SessionInv(s) && id in s.tracks && s.tracks[id].memory.established
    requires forall k :: 0 <= k < |vs| ==> !FailsAt(s.selection, vs[k], id)
    ensures var tracks := Process(env, s, vs).session.tracks;
            id in tracks && tracks[id].memory.established && tracks[id].arrow.Some?
    decreases |vs|
  {
    if |vs| > 0 {
      var n := |vs| - 1;
      var init := vs[..n];
      assert forall k :: 0 <= k < n ==> init[k] == vs[k];
      ProcessKeepsHeading(env, s, init, id);
      ProcessKeepsInv(env, s, init);
      StepKeepsHeading(env, Process(env, s, init), vs[n], id);
    }
  }

  /** Over a whole tick: a vehicle that stays tracked, and that no record of
      the feed fails, keeps its heading. */
  lemma TickKeepsHeading(env: Env, s: Session, feed: seq<RawRecord>, id: Id)
    requires SessionInv(s) && id in s.tracks && s.tracks[id].memory.established
    requires forall k :: 0 <= k < |feed| ==> !FailsAt(s.selection, Admit(feed[k], env.table), id)
    requires id in Tick(env, s, feed).tracks
    ensures Tick(env, s, feed).tracks[id].memory.established
    ensures Tick(env, s, feed).tracks[id].arrow.Some?
  {
    if !IsShowNone(s.selection) {
      ProcessKeepsHeading(env, s, Admitted(feed, env.table), id);
    }
  }

  /** Whatever label vehicle `id` has in `before` it still has in `after`. */
  predicate KeepsLabelsOf(before: Labels.LabelState, after: Labels.LabelState, id: Id) {
    && (before.pinnedId == Some(id) ==> after.pinnedId == Some(id))
    && (before.hoverId == Some(id) ==> after.hoverId == Some(id))
  }

  /** One iteration takes a vehicle's label away only when its record fails. */
  lemma StepKeepsLabels(env: Env, p: Pass, o: Option<Vehicle>, id: Id)
    requires !FailsAt(p.session.selection, o, id)
    ensures KeepsLabelsOf(p.session.labels, Step(env, p, o).session.labels, id)
  {
  }

  /** The loop keeps a vehicle's label while no record of it fails the filter. */
  lemma {:induction false} ProcessKeepsLabels(env: Env, s: Session, vs: seq<Option<Vehicle>>, id: Id)
    requires forall k :: 0 <= k < |vs| ==> !FailsAt(s.selection, vs[k], id)
    ensures KeepsLabelsOf(s.labels, Process(env, s, vs).session.labels, id)
    decreases |vs|
  {
    if |vs| > 0 {
      var n := |vs| - 1;
      var init := vs[..n];
      assert forall k :: 0 <= k < n ==> init[k] == vs[k];
      ProcessKeepsLabels(env, s, init, id);
      StepKeepsLabels(env, Process(env, s, init), vs[n], id);
    }
  }

  /** Over a whole tick: a vehicle that stays tracked, and that no record of
      the feed fails, keeps its hover and pinned labels. */
  lemma TickKeepsLabels(env: Env, s: Session, feed: seq<RawRecord>, id: Id)
    requires forall k :: 0 <= k < |feed| ==> !FailsAt(s.selection, Admit(feed[k], env.table), id)
    requires id in Tick(env, s, feed).tracks
    ensures KeepsLabelsOf(s.labels, Tick(env, s, feed).labels, id)
  {
    if !IsShowNone(s.selection) {
      var p := Process(env, s, Admitted(feed, env.table));
      ProcessKeepsLabels(env, s, Admitted(feed, env.table), id);
      assert id in p.seen;
    }
  }

  /** One animation frame for one vehicle. */
  function FrameTrack(t: Track, now: real): (r: Track)
    requires t.marker.anim.Some? ==> t.marker.anim.value.durationMs > 0.0
    ensures r.memory == t.memory && r.lastV == t.lastV && r.arrow == t.arrow && r.pop == t.pop
    ensures r.marker.anim.Some? ==> r.marker.anim == t.marker.anim
    ensures t.marker.anim.None? ==> r == t
    ensures forall id :: TrackInv(id, t) ==> TrackInv(id, r)
  {
    match t.marker.anim
    case None => t
    case Some(a) =>
      FrameEndsAtDestination(a, now);
      t.(marker := FrameStep(a, now))
  }

  /** Every glide in progress has a positive duration. */
  predicate Gliding(tracks: map<Id, Track>) {
    forall id :: id in tracks && tracks[id].marker.anim.Some? ==> tracks[id].marker.anim.value.durationMs > 0.0
  }

  /** One animation frame at time `now` for every gliding marker. */
  function Frame(s: Session, now: real): (r: Session)
    requires Gliding(s.tracks)
    ensures r.tracks.Keys == s.tracks.Keys
    ensures forall id :: id in r.tracks ==> r.tracks[id].lastV == s.tracks[id].lastV
    ensures r.labels == s.labels && r.selection == s.selection
    ensures SessionInv(s) ==> SessionInv(r)
  {
    var r := s.(tracks := map id | id in s.tracks :: FrameTrack(s.tracks[id], now));
    assert r.tracks.Keys == s.tracks.Keys;
    r
  }

  /** The invariant guarantees positive glide durations. */
  lemma InvGlides(s: Session)
    requires SessionInv(s)
    ensures Gliding(s.tracks)
  {
    forall id | id in s.tracks && s.tracks[id].marker.anim.Some?
      ensures s.tracks[id].marker.anim.value.durationMs > 0.0
    {
      assert TrackInv(id, s.tracks[id]);
    }
  }

  /** A frame after every glide has run its course settles every marker
      where its last record put it. */
  lemma FrameSettles(s: Session, now: real)
    requires SessionInv(s)
    requires forall id :: id in s.tracks && s.tracks[id].marker.anim.Some? ==>
               now >= s.tracks[id].marker.anim.value.start + s.tracks[id].marker.anim.value.durationMs
    ensures Gliding(s.tracks)
    ensures forall id :: id in Frame(s, now).tracks ==>
              Frame(s, now).tracks[id].marker == Marker(s.tracks[id].lastV.pos, None)
  {
    InvGlides(s);
    var r := Frame(s, now);
    forall id | id in r.tracks
      ensures r.tracks[id].marker == Marker(s.tracks[id].lastV.pos, None)
    {
      var t := s.tracks[id];
      assert TrackInv(id, t);
      if t.marker.anim.Some? {
        FrameAtEndArrives(t.marker.anim.value, now);
      }
    }
  }

  /** Pointer and click events on the map and on the arrows. */
  datatype UiEvent = MouseOverArrow(id: Id) | MouseOutArrow(id: Id) | ClickArrow(id: Id) | ClickMap | MouseMoveMap

  /** An event handled against the current marker map. */
  function Handle(s: Session, e: UiEvent): (r: Session)
    ensures r.tracks == s.tracks && r.selection == s.selection && r.knownLines == s.knownLines
    ensures Labels.Pinned(r.labels) != Labels.Pinned(s.labels) ==> e.ClickArrow? || e.ClickMap?
    ensures SessionInv(s) ==> SessionInv(r)
  {
    var l := s.labels;
    var l' := match e
      case MouseOverArrow(id) => Labels.MouseOver(l, id, id in s.tracks)
      case MouseOutArrow(id) => Labels.MouseOut(l, id)
      case ClickArrow(id) => Labels.MarkerClick(l, id, id in s.tracks)
      case ClickMap => Labels.MapClick(l)
      case MouseMoveMap => Labels.MouseMove(l);
    s.(labels := l')
  }
}

=== FILE: selection.dfy ===
/** The line-selection filter (app.js:394-571): the selection is a set of
    canonical line codes with two reserved tokens. The empty set shows every
    vehicle, a set holding `__NONE__` shows none, and `__BUS__` admits every bus. */
module Selection {

  import opened Wrappers
  import opened Text
  import opened Lines

  const NONE_TOKEN: string := "__NONE__"
  const BUS_TOKEN: string := "__BUS__"

  type Selection = set<string>

  /** `setShowAll` and `setShowNone` (app.js:447-454). */
  const SHOW_ALL: Selection := {}
  const SHOW_NONE: Selection := {NONE_TOKEN}

  /** `isShowNone`: the selection hides everything exactly when it holds the
      none sentinel. */
  predicate IsShowNone(sel: Selection)
    // Among well-formed selections that is the one set `setShowNone` writes.
    ensures WellFormed(sel) ==> (IsShowNone(sel) <==> sel == SHOW_NONE)
  {
    NONE_TOKEN in sel
  }

  /** The shapes the selection operations keep: show all, show none, or a set
      of codes and the bus token without the none sentinel. */
  predicate WellFormed(sel: Selection) {
    sel == {} || sel == {NONE_TOKEN} || NONE_TOKEN !in sel
  }

  /** The decision of `passesFilter` once the line is canonical. */
  function Admits(sel: Selection, code: string, isBus: bool): (ok: bool)
    ensures IsShowNone(sel) ==> !ok
    ensures sel == {} ==> ok
    ensures !IsShowNone(sel) && sel != {} ==> (ok <==> (isBus && BUS_TOKEN in sel) || code in sel)
  {
    if IsShowNone(sel) then false
    else if |sel| == 0 then true
    else if isBus then
      if BUS_TOKEN in sel then true else code in sel
    else code in sel
  }

  /** `passesFilter`: whether a vehicle with this line and trip type is shown.
      "None" hides everything, the empty set shows everything, a bus passes on
      the bus token or its own line, any other vehicle only on its line. */
  function PassesFilter(sel: Selection, line: string, vtype: Option<int>): (ok: bool)
    ensures IsShowNone(sel) ==> !ok
    ensures sel == {} ==> ok
    ensures !IsShowNone(sel) && sel != {} && vtype == Some(BUS_TYPE) ==>
              (ok <==> BUS_TOKEN in sel || NormalizeLine(line) in sel)
    ensures !IsShowNone(sel) && sel != {} && vtype != Some(BUS_TYPE) ==>
              (ok <==> NormalizeLine(line) in sel)
  {
    Admits(sel, NormalizeLine(line), vtype == Some(BUS_TYPE))
  }

  /** `isLineSelected`: whether a line chip shows as selected. */
  function IsLineSelected(sel: Selection, line: string): (ok: bool)
    ensures ok <==> !IsShowNone(sel) && (sel == {} || NormalizeLine(line) in sel)
  {
    var l := NormalizeLine(line);
    if IsShowNone(sel) then false
    else if |sel| == 0 then true
    else l in sel
  }

  /** A rail vehicle passes exactly when its line chip is selected. */
  lemma RailPassesIffLineSelected(sel: Selection, line: string, vtype: Option<int>)
    requires vtype != Some(BUS_TYPE)
    ensures PassesFilter(sel, line, vtype) == IsLineSelected(sel, line)
  {
  }

  /* ---------------- the reference view of a selection ---------------- */

  /** The reference view of a selection: no restriction, nothing, or a set of
      line codes plus a flag for every bus, as the comment at app.js:396-405
      lays out the meaning of the set. */
  datatype View = ShowAll | ShowNothing | Subset(codes: set<string>, busIncluded: bool)

  predicate IsToken(code: string) {
    code == NONE_TOKEN || code == BUS_TOKEN
  }

  predicate ValidView(v: View) {
    v.Subset? ==> (forall c :: c in v.codes ==> !IsToken(c)) && (v.codes != {} || v.busIncluded)
  }

  /** How the source reads its set. */
  function Decode(sel: Selection): (v: View)
    ensures WellFormed(sel) ==> ValidView(v)
  {
    if IsShowNone(sel) then ShowNothing
    else if sel == {} then ShowAll
    else Subset(sel - {BUS_TOKEN}, BUS_TOKEN in sel)
  }

  /** How a view is stored as a set. */
  function Encode(v: View): (sel: Selection)
    ensures ValidView(v) ==> WellFormed(sel)
  {
    match v
    case ShowAll => {}
    case ShowNothing => {NONE_TOKEN}
    case Subset(codes, bus) => codes + (if bus then {BUS_TOKEN} else {})
  }

  /** Reading a well-formed set as a view and storing it again gives the set back. */
  lemma EncodeDecode(sel: Selection)
    requires WellFormed(sel)
    ensures Encode(Decode(sel)) == sel
  {
    if !IsShowNone(sel) && sel != {} {
      var b: Selection := if BUS_TOKEN in sel then {BUS_TOKEN} else {};
      assert (sel - {BUS_TOKEN}) + b == sel;
    }
  }

  /** Storing a valid view and reading it back gives the view back. */
  lemma DecodeEncode(v: View)
    requires ValidView(v)
    ensures Decode(Encode(v)) == v
  {
    if v.Subset? {
      var sel := Encode(v);
      assert NONE_TOKEN !in v.codes && BUS_TOKEN !in v.codes;
      assert sel - {BUS_TOKEN} == v.codes;
      if !v.busIncluded {
        var c :| c in v.codes;
        assert c in sel;
      }
    }
  }

  /** The visibility rule of the reference view. */
  predicate Visible(v: View, code: string, isBus: bool) {
    match v
    case ShowNothing => false
    case ShowAll => true
    case Subset(codes, bus) => if isBus then bus || code in codes else code in codes
  }

  /** The decision on the set agrees with the reference view's rule, for
      every code except the bus token itself. */
  lemma AdmitsMatchesView(sel: Selection, code: string, isBus: bool)
    requires code != BUS_TOKEN
    ensures Admits(sel, code, isBus) == Visible(Decode(sel), code, isBus)
  {
  }

  /** `passesFilter` agrees with the reference view's rule for every line not
      spelled like the bus token. */
  lemma PassesFilterMatchesView(sel: Selection, line: string, vtype: Option<int>)
    requires NormalizeLine(line) != BUS_TOKEN
    ensures PassesFilter(sel, line, vtype) == Visible(Decode(sel), NormalizeLine(line), vtype == Some(BUS_TYPE))
  {
    AdmitsMatchesView(sel, NormalizeLine(line), vtype == Some(BUS_TYPE));
  }

  /** A rail line whose canonical code is spelled like the bus token (such as
      `__bus__`) passes a bus-mode selection, which the reference view's rule
      would not let through. */
  lemma RailLineNamedLikeBusToken(sel: Selection, line: string, vtype: Option<int>)
    requires NormalizeLine(line) == BUS_TOKEN
    requires BUS_TOKEN in sel && !IsShowNone(sel)
    requires vtype != Some(BUS_TYPE)
    ensures PassesFilter(sel, line, vtype)
    ensures !Visible(Decode(sel), BUS_TOKEN, false)
  {
  }

  /* ---------------- toggles ---------------- */

  /** The set update of `toggleRailLineSelection` for a canonical code:
      from "all" or "none" start a fresh filter with this code; otherwise flip
      the code, turning an emptied set into "none"; an empty code changes nothing. */
  function ToggleCode(sel: Selection, l: string): (r: Selection)
    ensures l == "" ==> r == sel
    ensures l != "" ==> r != {}
    ensures l != "" && (IsShowNone(sel) || sel == {}) ==> r == {l}
    ensures l != "" && !IsShowNone(sel) && sel == {l} ==> r == SHOW_NONE
    ensures l != "" && !IsShowNone(sel) && sel != {} && sel != {l} ==>
              (l in r <==> l !in sel) && forall x :: x != l ==> (x in r <==> x in sel)
  {
    if l == "" then sel
    else if IsShowNone(sel) || |sel| == 0 then {l}
    else
      var flipped := if l in sel then sel - {l} else sel + {l};
      if |flipped| == 0 then SHOW_NONE else flipped
  }

  /** `toggleRailLineSelection`: toggles the line's canonical code. */
  function ToggleRailLine(sel: Selection, line: string): (r: Selection)
    ensures NormalizeLine(line) != "" ==> r != {}
    ensures NormalizeLine(line) == "" ==> r == sel
  {
    ToggleCode(sel, NormalizeLine(line))
  }

  /** The line toggle of the reference view. */
  function ToggleLineView(v: View, code: string): View {
    match v
    case ShowAll => Subset({code}, false)
    case ShowNothing => Subset({code}, false)
    case Subset(codes, bus) =>
      var c := if code in codes then codes - {code} else codes + {code};
      if c == {} && !bus then ShowNothing else Subset(c, bus)
  }

  /** On a restricted selection the toggle flips the code among the line codes
      and keeps the bus token as it was. */
  lemma ToggleRestrictedCodes(sel: Selection, l: string)
    requires NONE_TOKEN !in sel && sel != {} && sel != {l}
    requires l != "" && !IsToken(l)
    ensures var codes := sel - {BUS_TOKEN};
            ToggleCode(sel, l) - {BUS_TOKEN} == (if l in codes then codes - {l} else codes + {l})
    ensures (BUS_TOKEN in ToggleCode(sel, l)) == (BUS_TOKEN in sel)
    ensures NONE_TOKEN !in ToggleCode(sel, l)
  {
  }

  /** A non-empty set without the none sentinel whose codes are the flip of a
      restricted selection's codes, with the same bus flag, reads as the view's flip. */
  lemma FlippedSetMatchesView(sel: Selection, r: Selection, l: string)
    requires NONE_TOKEN !in sel && sel != {}
    requires NONE_TOKEN !in r && r != {}
    requires l != BUS_TOKEN
    requires var codes := sel - {BUS_TOKEN};
             r - {BUS_TOKEN} == (if l in codes then codes - {l} else codes + {l})
    requires (BUS_TOKEN in r) == (BUS_TOKEN in sel)
    ensures Decode(r) == ToggleLineView(Decode(sel), l)
  {
    var codes := sel - {BUS_TOKEN};
    var bus := BUS_TOKEN in sel;
    var c := if l in codes then codes - {l} else codes + {l};
    assert Decode(sel) == Subset(codes, bus);
    assert Decode(r) == Subset(c, bus);
    assert c != {} || bus by {
      var x :| x in r;
      if x != BUS_TOKEN {
        assert x in c;
      }
    }
  }

  /** The restricted case of `ToggleCodeMatchesView`. */
  lemma ToggleRestrictedMatchesView(sel: Selection, l: string)
    requires NONE_TOKEN !in sel && sel != {} && sel != {l}
    requires l != "" && !IsToken(l)
    ensures Decode(ToggleCode(sel, l)) == ToggleLineView(Decode(sel), l)
  {
    ToggleRestrictedCodes(sel, l);
    FlippedSetMatchesView(sel, ToggleCode(sel, l), l);
  }

  /** The toggle on sets is the reference view's toggle. */
  lemma ToggleCodeMatchesView(sel: Selection, l: string)
    requires WellFormed(sel)
    requires l != "" && !IsToken(l)
    ensures Decode(ToggleCode(sel, l)) == ToggleLineView(Decode(sel), l)
  {
    if IsShowNone(sel) || sel == {} {
      assert ToggleCode(sel, l) == {l};
      assert {l} - {BUS_TOKEN} == {l};
    } else if sel == {l} {
      assert Decode(sel) == Subset({l}, false) by {
        assert sel - {BUS_TOKEN} == {l};
      }
    } else {
      ToggleRestrictedMatchesView(sel, l);
    }
  }

  /** Toggling a code twice from a restricted selection restores it. */
  lemma ToggleCodeTwice(sel: Selection, l: string)
    requires sel != {} && !IsShowNone(sel)
    requires l != "" && l != NONE_TOKEN
    ensures ToggleCode(ToggleCode(sel, l), l) == sel
  {
  }

  /** A toggle flips the visibility of that line's rail vehicles and leaves
      every other rail line's visibility alone, unless it empties the selection. */
  lemma ToggleCodeFlipsOnlyThatLine(sel: Selection, l: string, other: string)
    requires sel != {} && !IsShowNone(sel) && sel != {l}
    requires l != "" && l != NONE_TOKEN
    ensures Admits(ToggleCode(sel, l), l, false) == !Admits(sel, l, false)
    ensures other != l ==> Admits(ToggleCode(sel, l), other, false) == Admits(sel, other, false)
  {
  }

  /** A toggle keeps the selection well formed unless the code is the none sentinel. */
  lemma ToggleCodeWellFormed(sel: Selection, l: string)
    requires WellFormed(sel)
    requires l != NONE_TOKEN
    ensures WellFormed(ToggleCode(sel, l))
  {
  }

  /** A line whose canonical code is spelled like the none sentinel (such as
      `__none__`), toggled into a restricted selection, makes the selection hide
      every vehicle while keeping its other codes: the set is no longer well formed. */
  lemma ToggleNoneSpelledLine(sel: Selection, line: string)
    requires NormalizeLine(line) == NONE_TOKEN
    requires sel != {} && !IsShowNone(sel)
    ensures ToggleRailLine(sel, line) == sel + {NONE_TOKEN}
    ensures !WellFormed(ToggleRailLine(sel, line))
    ensures forall l, b :: !Admits(ToggleRailLine(sel, line), l, b)
  {
  }

  /** `toggleBusMode`: from "all" or "none" show only buses; otherwise flip the
      bus token, turning an emptied set into "none". */
  function ToggleBusMode(sel: Selection): (r: Selection)
    ensures r != {}
    ensures (sel == {} || IsShowNone(sel)) ==> r == {BUS_TOKEN}
    ensures sel == {BUS_TOKEN} ==> r == SHOW_NONE
    ensures sel != {} && !IsShowNone(sel) && sel != {BUS_TOKEN} ==>
              (BUS_TOKEN in r <==> BUS_TOKEN !in sel)
              && forall x :: x != BUS_TOKEN ==> (x in r <==> x in sel)
  {
    if |sel| == 0 || IsShowNone(sel) then {BUS_TOKEN}
    else
      var flipped := if BUS_TOKEN in sel then sel - {BUS_TOKEN} else sel + {BUS_TOKEN};
      if |flipped| == 0 then SHOW_NONE else flipped
  }

  /** The bus toggle of the reference view. */
  function ToggleBusView(v: View): View {
    match v
    case ShowAll => Subset({}, true)
    case ShowNothing => Subset({}, true)
    case Subset(codes, bus) => if codes == {} && bus then ShowNothing else Subset(codes, !bus)
  }

  /** The bus toggle on sets is the reference view's flip of the bus flag. */
  lemma ToggleBusModeMatchesView(sel: Selection)
    requires WellFormed(sel)
    ensures Decode(ToggleBusMode(sel)) == ToggleBusView(Decode(sel))
  {
    var r := ToggleBusMode(sel);
    if !IsShowNone(sel) && sel != {} && sel != {BUS_TOKEN} {
      assert r - {BUS_TOKEN} == sel - {BUS_TOKEN};
    }
  }

  /** Toggling bus mode twice from a restricted selection restores it, and
      the toggle keeps the selection well formed. */
  lemma ToggleBusModeTwice(sel: Selection)
    requires sel != {} && !IsShowNone(sel)
    ensures ToggleBusMode(ToggleBusMode(sel)) == sel
    ensures WellFormed(ToggleBusMode(sel))
  {
  }

  /* ---------------- search ---------------- */

  /** `map((s) => s.trim())`: every part trimmed. */
  function TrimAll(parts: seq<string>): (r: seq<string>)
    ensures |r| == |parts|
    ensures forall k :: 0 <= k < |parts| ==> r[k] == Trim(parts[k])
  {
    seq(|parts|, k requires 0 <= k < |parts| => Trim(parts[k]))
  }

  /** `filter(Boolean)` on strings: the parts that are not empty. */
  function NonEmpty(parts: seq<string>): (r: seq<string>)
    ensures |r| <= |parts|
    ensures forall k :: 0 <= k < |r| ==> r[k] != ""
    ensures forall x :: x in r <==> x != "" && x in parts
    decreases |parts|
  {
    if |parts| == 0 then []
    else
      assert parts == [parts[0]] + parts[1..];
      (if parts[0] == "" then [] else [parts[0]]) + NonEmpty(parts[1..])
  }

  /** What a part of the search text looks like: non-empty, free of commas,
      and neither starting nor ending with whitespace. */
  predicate IsSearchPart(x: string) {
    x != "" && ',' !in x && !IsSpace(x[0]) && !IsSpace(x[|x| - 1])
  }

  /** The parts of the search text (app.js:551): the comma-separated pieces,
      trimmed, empty ones dropped. */
  function SearchParts(raw: string): (r: seq<string>)
    ensures forall x :: x in r <==> x != "" && x in TrimAll(Split(raw, ','))
    ensures forall k :: 0 <= k < |r| ==> IsSearchPart(r[k])
  {
    var pieces := Split(raw, ',');
    var trimmed := TrimAll(pieces);
    TrimAllShape(pieces);
    var r := NonEmpty(trimmed);
    NonEmptyShape(trimmed, r);
    r
  }

  /** Every non-empty trimmed comma-free piece looks like a search part. */
  lemma TrimAllShape(pieces: seq<string>)
    requires forall j :: 0 <= j < |pieces| ==> ',' !in pieces[j]
    ensures var t := TrimAll(pieces);
            forall j :: 0 <= j < |t| && t[j] != "" ==> IsSearchPart(t[j])
  {
    forall j | 0 <= j < |pieces|
      ensures var t := Trim(pieces[j]); t != "" ==> IsSearchPart(t)
    {
      TrimmedPieceShape(pieces[j]);
    }
  }

  /** Keeping only the non-empty pieces keeps their shape. */
  lemma NonEmptyShape(parts: seq<string>, r: seq<string>)
    requires forall j :: 0 <= j < |parts| && parts[j] != "" ==> IsSearchPart(parts[j])
    requires forall x :: x in r ==> x != "" && x in parts
    ensures forall k :: 0 <= k < |r| ==> IsSearchPart(r[k])
  {
    forall k | 0 <= k < |r|
      ensures IsSearchPart(r[k])
    {
      assert r[k] in r;
    }
  }

  /** One comma-free piece, trimmed and non-empty. */
  lemma TrimmedPieceShape(p: string)
    requires ',' !in p
    ensures var t := Trim(p); t != "" ==> IsSearchPart(t)
  {
    TrimKeepsOut(p, ',');
  }

  /** Trimming adds no character: one absent from the text is absent from
      its trimmed form. */
  lemma TrimKeepsOut(p: string, c: char)
    requires c !in p
    ensures c !in Trim(p)
  {
    var t := Trim(p);
    var u := TrimStart(p);
    forall k | 0 <= k < |t|
      ensures t[k] != c
    {
      assert t[k] == u[k] == p[|p| - |u| + k];
    }
  }

  /** What one search part contributes: the bus token for "bus"/"buss" in any
      case, otherwise its canonical code unless that is empty or the none sentinel. */
  function SearchToken(p: string): (t: Option<string>)
    ensures t.Some? ==> t.value != NONE_TOKEN && t.value != ""
    ensures Lower(p) == "bus" || Lower(p) == "buss" ==> t == Some(BUS_TOKEN)
    ensures Lower(p) != "bus" && Lower(p) != "buss" ==>
              t == (if NormalizeLine(p) == "" || NormalizeLine(p) == NONE_TOKEN then None
                    else Some(NormalizeLine(p)))
  {
    var low := Lower(p);
    if low == "bus" || low == "buss" then Some(BUS_TOKEN)
    else
      var norm := NormalizeLine(p);
      if norm != "" && norm != NONE_TOKEN then Some(norm) else None
  }

  /** The set of tokens the parts contribute (the loop at app.js:557-565). */
  function Tokens(parts: seq<string>): (out: set<string>)
    ensures NONE_TOKEN !in out && "" !in out
  {
    set k | 0 <= k < |parts| && SearchToken(parts[k]).Some? :: SearchToken(parts[k]).value
  }

  /** `setSelectionFromSearch`: an absolute replacement of the selection by
      the tokens of the search text; text with no usable token leaves the
      selection unchanged. */
  function SetSelectionFromSearch(sel: Selection, raw: string): (r: Selection)
    ensures Tokens(SearchParts(raw)) == {} ==> r == sel
    ensures Tokens(SearchParts(raw)) != {} ==> r == Tokens(SearchParts(raw))
    ensures Tokens(SearchParts(raw)) != {} ==> r != {} && NONE_TOKEN !in r && forall x :: x in r <==>
              exists k :: 0 <= k < |SearchParts(raw)| && SearchToken(SearchParts(raw)[k]) == Some(x)
  {
    var parts := SearchParts(raw);
    if |parts| == 0 then sel
    else
      var out := Tokens(parts);
      if |out| == 0 then sel else out
  }

  /** A part reading "bus" or "buss" in any case puts the bus token in the selection. */
  lemma SearchBusWord(sel: Selection, raw: string, k: nat)
    requires k < |SearchParts(raw)|
    requires Lower(SearchParts(raw)[k]) == "bus" || Lower(SearchParts(raw)[k]) == "buss"
    ensures BUS_TOKEN in SetSelectionFromSearch(sel, raw)
  {
    var parts := SearchParts(raw);
    assert SearchToken(parts[k]) == Some(BUS_TOKEN);
    assert BUS_TOKEN in Tokens(parts);
  }

  /** Searching is an absolute set operation: once the text yields a token,
      the result does not depend on the previous selection. */
  lemma SearchIgnoresPrevious(sel1: Selection, sel2: Selection, raw: string)
    ensures Tokens(SearchParts(raw)) != {} ==>
              SetSelectionFromSearch(sel1, raw) == SetSelectionFromSearch(sel2, raw)
  {
  }

  /** Applying the same search twice equals applying it once. */
  lemma SearchIdempotent(sel: Selection, raw: string)
    ensures SetSelectionFromSearch(SetSelectionFromSearch(sel, raw), raw) == SetSelectionFromSearch(sel, raw)
  {
  }

  /** A search that changes the selection yields the reference view's subset
      of its tokens, and keeps a well-formed selection well formed. */
  lemma SearchMatchesView(sel: Selection, raw: string)
    requires WellFormed(sel)
    ensures WellFormed(SetSelectionFromSearch(sel, raw))
    ensures var out := Tokens(SearchParts(raw));
            out != {} ==> Decode(SetSelectionFromSearch(sel, raw)) == Subset(out - {BUS_TOKEN}, BUS_TOKEN in out)
  {
  }
}

=== FILE: text.dfy ===
/** Character classes and string operations of the JavaScript runtime that the
    line classifier and the search box rely on, written out over `seq<char>`. */
module Text {

  import opened Wrappers

  /** The characters JavaScript's `\s` class matches and `String.prototype.trim`
      removes: the WhiteSpace and LineTerminator code points. */
  predicate IsSpace(c: char) {
    var n := c as int;
    (0x09 <= n <= 0x0D) || n == 0x20 || n == 0xA0 || n == 0x1680
    || (0x2000 <= n <= 0x200A) || n == 0x2028 || n == 0x2029 || n == 0x202F
    || n == 0x205F || n == 0x3000 || n == 0xFEFF
  }

  /** `\d` (without the `u` flag this is ASCII only). */
  predicate IsDigit(c: char) { '0' <= c <= '9' }

  predicate IsUpper(c: char) { 'A' <= c <= 'Z' }

  predicate IsLower(c: char) { 'a' <= c <= 'z' }

  /** `[A-Z]` under the `i` flag: an ASCII letter of either case. */
  predicate IsLetter(c: char) { IsUpper(c) || IsLower(c) }

  predicate NoSpaces(s: string) {
    forall k :: 0 <= k < |s| ==> !IsSpace(s[k])
  }

  predicate NoDigits(s: string) {
    forall k :: 0 <= k < |s| ==> !IsDigit(s[k])
  }

  predicate NoLower(s: string) {
    forall k :: 0 <= k < |s| ==> !IsLower(s[k])
  }

  /** The capital of a lower-case ASCII letter: the letter at the same place
      in the alphabet. */
  function UpperChar(c: char): (u: char)
    ensures !IsLower(u)
    ensures IsLower(c) ==> IsUpper(u) && u as int - 'A' as int == c as int - 'a' as int
    ensures !IsLower(c) ==> u == c
  {
    if IsLower(c) then (c as int - 32) as char else c
  }

  /** The small letter of an upper-case ASCII letter: the letter at the same
      place in the alphabet. */
  function LowerChar(c: char): (l: char)
    ensures !IsUpper(l)
    ensures IsUpper(c) ==> IsLower(l) && l as int - 'a' as int == c as int - 'A' as int
    ensures !IsUpper(c) ==> l == c
  {
    if IsUpper(c) then (c as int + 32) as char else c
  }

  /** `toUpperCase`, restricted to the ASCII letters. */
  function Upper(s: string): (r: string)
    ensures |r| == |s|
    ensures forall k :: 0 <= k < |s| ==> r[k] == UpperChar(s[k])
  {
    seq(|s|, k requires 0 <= k < |s| => UpperChar(s[k]))
  }

  /** `toLowerCase`, restricted to the ASCII letters. */
  function Lower(s: string): (r: string)
    ensures |r| == |s|
    ensures forall k :: 0 <= k < |s| ==> r[k] == LowerChar(s[k])
  {
    seq(|s|, k requires 0 <= k < |s| => LowerChar(s[k]))
  }

  /** Drops the leading whitespace. */
  function TrimStart(s: string): (r: string)
    ensures |r| <= |s| && r == s[|s| - |r|..]
    ensures forall k :: 0 <= k < |s| - |r| ==> IsSpace(s[k])
    ensures r == [] || !IsSpace(r[0])
    decreases |s|
  {
    if |s| > 0 && IsSpace(s[0]) then TrimStart(s[1..]) else s
  }

  /** Drops the trailing whitespace. */
  function TrimEnd(s: string): (r: string)
    ensures |r| <= |s| && r == s[..|r|]
    ensures forall k :: |r| <= k < |s| ==> IsSpace(s[k])
    ensures r == [] || !IsSpace(r[|r| - 1])
    decreases |s|
  {
    if |s| > 0 && IsSpace(s[|s| - 1]) then TrimEnd(s[..|s| - 1]) else s
  }

  /** `String.prototype.trim`: a contiguous piece of `s` that neither starts nor
      ends with whitespace, obtained by removing whitespace only: it is a prefix
      of `TrimStart(s)`, and what it leaves of that is all whitespace, so the
      whitespace inside the text stays. */
  function Trim(s: string): (r: string)
    ensures r == [] || (!IsSpace(r[0]) && !IsSpace(r[|r| - 1]))
    ensures |r| <= |s|
    ensures NoSpaces(s) ==> r == s
    ensures var t := TrimStart(s); |r| <= |t| && r == t[..|r|]
    ensures var t := TrimStart(s); forall k :: |r| <= k < |t| ==> IsSpace(t[k])
  {
    TrimEnd(TrimStart(s))
  }

  /** `replace(/\s+/g, "")`: removes every whitespace character. */
  function StripSpaces(s: string): (r: string)
    ensures NoSpaces(r)
    ensures |r| <= |s|
    ensures NoDigits(s) ==> NoDigits(r)
    ensures NoSpaces(s) ==> r == s
    decreases |s|
  {
    if |s| == 0 then []
    else (if IsSpace(s[0]) then [] else [s[0]]) + StripSpaces(s[1..])
  }

  lemma {:induction false} StripSpacesAppend(a: string, b: string)
    ensures StripSpaces(a + b) == StripSpaces(a) + StripSpaces(b)
    decreases |a|
  {
    if |a| == 0 {
      assert a + b == b;
    } else {
      var head: string := if IsSpace(a[0]) then [] else [a[0]];
      assert (a + b)[1..] == a[1..] + b;
      assert (a + b)[0] == a[0];
      calc {
        StripSpaces(a + b);
        head + StripSpaces(a[1..] + b);
        { StripSpacesAppend(a[1..], b); }
        head + (StripSpaces(a[1..]) + StripSpaces(b));
        (head + StripSpaces(a[1..])) + StripSpaces(b);
        StripSpaces(a) + StripSpaces(b);
      }
    }
  }

  /** A string made of whitespace only strips to nothing. */
  lemma {:induction false} StripAllSpaces(s: string)
    requires forall k :: 0 <= k < |s| ==> IsSpace(s[k])
    ensures StripSpaces(s) == []
    decreases |s|
  {
    if |s| > 0 {
      StripAllSpaces(s[1..]);
    }
  }

  lemma TrimStartOnlyRemovesSpaces(s: string)
    ensures StripSpaces(TrimStart(s)) == StripSpaces(s)
  {
    var t := TrimStart(s);
    var lead := s[..|s| - |t|];
    assert s == lead + t;
    StripAllSpaces(lead);
    StripSpacesAppend(lead, t);
  }

  lemma TrimEndOnlyRemovesSpaces(s: string)
    ensures StripSpaces(TrimEnd(s)) == StripSpaces(s)
  {
    var r := TrimEnd(s);
    var trail := s[|r|..];
    assert s == r + trail;
    StripAllSpaces(trail);
    StripSpacesAppend(r, trail);
  }

  /** Trimming removes whitespace and nothing else. */
  lemma TrimOnlyRemovesSpaces(s: string)
    ensures StripSpaces(Trim(s)) == StripSpaces(s)
  {
    TrimStartOnlyRemovesSpaces(s);
    TrimEndOnlyRemovesSpaces(TrimStart(s));
  }

  /** The end of the run of characters satisfying `p` that starts at `i`. */
  function RunEnd(s: string, i: nat, p: char -> bool): (j: nat)
    requires i <= |s|
    ensures i <= j <= |s|
    ensures forall k :: i <= k < j ==> p(s[k])
    ensures j == |s| || !p(s[j])
    decreases |s| - i
  {
    if i < |s| && p(s[i]) then RunEnd(s, i + 1, p) else i
  }

  /** The first index at or after `i` holding a digit, if any. */
  function FirstDigit(s: string, i: nat): (r: Option<nat>)
    requires i <= |s|
    ensures r.None? ==> forall k :: i <= k < |s| ==> !IsDigit(s[k])
    ensures r.Some? ==> i <= r.value < |s| && IsDigit(s[r.value])
    ensures r.Some? ==> forall k :: i <= k < r.value ==> !IsDigit(s[k])
    decreases |s| - i
  {
    if i == |s| then None
    else if IsDigit(s[i]) then Some(i)
    else FirstDigit(s, i + 1)
  }

  /** The first index at or after `i` holding `c`, if any. */
  function IndexOf(s: string, c: char, i: nat): (r: Option<nat>)
    requires i <= |s|
    ensures r.None? ==> forall k :: i <= k < |s| ==> s[k] != c
    ensures r.Some? ==> i <= r.value < |s| && s[r.value] == c
    ensures r.Some? ==> forall k :: i <= k < r.value ==> s[k] != c
    decreases |s| - i
  {
    if i == |s| then None
    else if s[i] == c then Some(i)
    else IndexOf(s, c, i + 1)
  }

  /** `s.split(sep)` for a one-character separator: the pieces between the
      occurrences of `sep`, always at least one. */
  function Split(s: string, sep: char): (parts: seq<string>)
    ensures |parts| >= 1
    ensures forall k :: 0 <= k < |parts| ==> sep !in parts[k]
    decreases |s|
  {
    match IndexOf(s, sep, 0)
    case None => [s]
    case Some(i) => [s[..i]] + Split(s[i + 1..], sep)
  }

  /** `parts.join(sep)`. */
  function Join(parts: seq<string>, sep: char): string
    requires |parts| >= 1
    decreases |parts|
  {
    if |parts| == 1 then parts[0] else parts[0] + [sep] + Join(parts[1..], sep)
  }

  /** Splitting loses nothing: joining the pieces gives the input back. */
  lemma {:induction false} JoinSplit(s: string, sep: char)
    ensures Join(Split(s, sep), sep) == s
    decreases |s|
  {
    match IndexOf(s, sep, 0)
    case None =>
    case Some(i) =>
      var tail := s[i + 1..];
      var parts := [s[..i]] + Split(tail, sep);
      assert Split(s, sep) == parts;
      assert parts[1..] == Split(tail, sep);
      calc {
        Join(parts, sep);
        s[..i] + [sep] + Join(Split(tail, sep), sep);
        { JoinSplit(tail, sep); }
        s[..i] + [sep] + tail;
        s;
      }
  }

  /** Pieces free of the separator are recovered by splitting their join. */
  lemma {:induction false} SplitJoin(parts: seq<string>, sep: char)
    requires |parts| >= 1
    requires forall k :: 0 <= k < |parts| ==> sep !in parts[k]
    ensures Split(Join(parts, sep), sep) == parts
    decreases |parts|
  {
    var p0 := parts[0];
    if |parts| == 1 {
      forall k | 0 <= k < |p0|
        ensures p0[k] != sep
      {
        assert p0[k] in p0;
      }
    } else {
      var rest := Join(parts[1..], sep);
      var s := p0 + [sep] + rest;
      var idx := IndexOf(s, sep, 0);
      assert s[|p0|] == sep;
      assert idx.Some? && idx.value == |p0| by {
        forall k | 0 <= k < |p0|
          ensures s[k] != sep
        {
          assert s[k] == p0[k];
          assert p0[k] in p0;
        }
      }
      assert s[..|p0|] == p0;
      assert s[|p0| + 1..] == rest;
      SplitJoin(parts[1..], sep);
      assert parts == [p0] + parts[1..];
    }
  }

  /** The character of a decimal digit value. */
  function DigitChar(d: nat): (c: char)
    requires d < 10
    ensures IsDigit(c)
  {
    ('0' as int + d) as char
  }

  function DigitValue(c: char): nat
    requires IsDigit(c)
  {
    c as int - '0' as int
  }

  /** The decimal text of a natural number, as `${n}` produces it. */
  function Decimal(n: nat): (s: string)
    ensures |s| >= 1
    ensures forall k :: 0 <= k < |s| ==> IsDigit(s[k])
    ensures |s| > 1 ==> s[0] != '0'
    decreases n
  {
    if n < 10 then [DigitChar(n)] else Decimal(n / 10) + [DigitChar(n % 10)]
  }

  /** The value of a string of decimal digits. */
  function DecimalValue(s: string): nat
    requires forall k :: 0 <= k < |s| ==> IsDigit(s[k])
    decreases |s|
  {
    if |s| == 0 then 0
    else DecimalValue(s[..|s| - 1]) * 10 + DigitValue(s[|s| - 1])
  }

  /** Reading back the decimal text of `n` gives `n`. */
  lemma {:induction false} DecimalRoundTrip(n: nat)
    ensures DecimalValue(Decimal(n)) == n
    decreases n
  {
    var s := Decimal(n);
    if n >= 10 {
      DecimalRoundTrip(n / 10);
      assert s[..|s| - 1] == Decimal(n / 10);
    }
  }

  /** The value of a hexadecimal digit of either case, as `parseInt(_, 16)` reads it. */
  function HexDigitValue(c: char): (r: Option<nat>)
    ensures r.Some? ==> r.value < 16
  {
    if '0' <= c <= '9' then Some(c as int - '0' as int)
    else if 'a' <= c <= 'f' then Some(c as int - 'a' as int + 10)
    else if 'A' <= c <= 'F' then Some(c as int - 'A' as int + 10)
    else None
  }

  /** The lower-case hexadecimal digit of a value below 16, as `toString(16)` writes it. */
  function HexDigitChar(d: nat): (c: char)
    requires d < 16
    ensures HexDigitValue(c) == Some(d)
    ensures !IsUpper(c)
  {
    if d < 10 then ('0' as int + d) as char else ('a' as int + d - 10) as char
  }

  /** Lower-casing leaves text without capitals alone. */
  lemma LowerKeepsNonUpper(s: string)
    requires forall k :: 0 <= k < |s| ==> !IsUpper(s[k])
    ensures Lower(s) == s
  {
  }

  /** Two hexadecimal digits read as one byte. */
  function ParseHexByte(s: string): (r: Option<nat>)
    requires |s| == 2
    ensures r.Some? ==> r.value < 256
  {
    match (HexDigitValue(s[0]), HexDigitValue(s[1]))
    case (Some(hi), Some(lo)) => Some(hi * 16 + lo)
    case _ => None
  }

  /** `parseInt(_, 16)` does not care about case. */
  lemma HexDigitIgnoresCase(c: char)
    ensures HexDigitValue(c) == HexDigitValue(LowerChar(c))
  {
  }

  /** Writing back a hexadecimal digit gives its lower-case spelling. */
  lemma HexDigitWritesBack(c: char)
    requires HexDigitValue(c).Some?
    ensures HexDigitChar(HexDigitValue(c).value) == LowerChar(c)
  {
  }

  /** `v.toString(16).padStart(2, "0")` for a byte value. */
  function HexByte(v: nat): (s: string)
    requires v < 256
    ensures |s| == 2
    ensures ParseHexByte(s) == Some(v)
    ensures !IsUpper(s[0]) && !IsUpper(s[1])
  {
    [HexDigitChar(v / 16), HexDigitChar(v % 16)]
  }

  /** Reading two hexadecimal digits and writing the byte back gives the
      digits in lower case: the two conversions are inverse up to case. */
  lemma ParseHexByteWritesBack(s: string)
    requires |s| == 2 && ParseHexByte(s).Some?
    ensures HexByte(ParseHexByte(s).value) == Lower(s)
  {
    var hi := HexDigitValue(s[0]).value;
    var lo := HexDigitValue(s[1]).value;
    var v := hi * 16 + lo;
    assert v / 16 == hi && v % 16 == lo;
    HexDigitWritesBack(s[0]);
    HexDigitWritesBack(s[1]);
  }
}

=== FILE: wrappers.dfy ===
/** The optional-value type used wherever the source has `null`/`undefined`. */
module Wrappers {

  datatype Option<+T> = None | Some(value: T) {

    /** Returns the value, or `default` when there is none. */
    function GetOr(default: T): T {
      match this
      case Some(v) => v
      case None => default
    }
  }
}
